=== FILE: README.md ===
# hyperdrive paths and dependency updater, in Dafny

This project models two pieces of the hyperdrive trading toolkit and proves
properties of them:

- **`hyperdrive/Constants.py`**: the environment flag reader `get_env_bool`,
  the `folders` table mapping a data provider to its directory, every
  `PathFinder.get_*_path` builder, and the filtering and truncation that
  `PathFinder.get_all_paths` applies to the files a directory walk reports.
  Paths are built by `os.path.join`. It is modelled exactly as POSIX
  `posixpath.join` folds its arguments: an absolute argument discards what
  came before it, and a `/` is inserted only after a non-empty part that
  does not already end in one.
- **`util/update.py`**: the script that brings `requirements.txt` up to
  date. The model covers:
  - the filter that keeps the numeric-dotted release keys;
  - the integer-list sort key and Python's list ordering;
  - the newest release, which `sorted(...).pop()` takes;
  - the upgrade decision against the packages that are updated by hand;
  - the line format the script writes;
  - the regular expression `(\S*)\s?==\s?(\S*)` it reads lines with,
    including the backtracking of the greedy first group.

Modules:

| module | file | contents |
|---|---|---|
| `Results` | results.dfy | `Option`, `Result` |
| `Selection` | selection.dfy | order-preserving selection, shared by the release filter and `get_all_paths` |
| `Text` | text.dfy | character classes, `upper`/`lower`, substring search, `split`/`join` on one separator, decimal value |
| `PosixPath` | posix_path.dfy | `os.path.join` |
| `Constants` | constants.dfy | `get_env_bool`, directory names, `folders` |
| `PathFinder` | path_finder.dfy | the path builders and `get_all_paths` |
| `Versions` | versions.dfy | release filter, integer components, list order, newest release |
| `VersionExamples` | version_examples.dfy | worked release keys |
| `Update` | update.dfy | the upgrade decision and the loop over the pinned packages |
| `Requirements` | requirements.dfy | line format, the read pattern, and the file round trip |

Errors the source raises are values in the model:

| source error | model value |
|---|---|
| `KeyError` from `folders[provider]` | `Constants.KeyError` |
| `IndexError` from `pop()` on an empty list of releases | `Versions.NoReleases` |
| `ValueError` from `int('')` on keys such as `1..2` | `Versions.MalformedRelease` |
| the script aborting at the first package that fails | `Update.UpdateError` |

Behaviour the proofs make explicit:

- When `get_all_paths` is given a path with a trailing `/` and
  `truncate=True`, it also cuts off the first character of each top-level
  file name and of each top-level subdirectory name in the paths it
  reports (`PathFinder.TruncateAfterTrailingSlash`).
- An absolute symbol discards the `data/<dir>/<provider>` prefix, so the
  dividends, splits, ohlc and sentiment builders all return the same path,
  `SYMBOL.csv` (`PathFinder.AbsoluteSymbolPathsCoincide`). The four
  paths differ only for a relative symbol and a known provider
  (`PathFinder.SymbolPathsDistinct`).
- For a package not on the skip list, a pin whose version is not a
  numeric release, such as `2.0rc1`, is replaced by the newest numeric
  release even when that is older (`Update.NextVersion`).
- The written file reads back as the same requirements when no name or
  version holds whitespace and no name starts with `==`
  (`Requirements.RenderRoundTrip`). A name starting with `==` after the
  first line is misread: the `\s?` before `==` takes the newline ending
  the line above, and the pattern matches there with an empty name
  (`Requirements.LaterEqEqNameMisread`).

## Model

| member | source | states |
|---|---|---|
| Constants.EnvBool | hyperdrive/Constants.py:10-12 | a variable reads as true exactly when it is set to the four letters t-r-u-e in any mix of cases |
| Constants.EnvBoolUnsetOrEmpty | hyperdrive/Constants.py:10-12 | an unset variable and an empty one both read as false |
| Constants.EnvBoolIgnoresCase | hyperdrive/Constants.py:10-12 | two values that lower-case alike give the same flag |
| Constants.Folder | hyperdrive/Constants.py:37-41 | the table knows exactly iexcloud, polygon and stocktwits, maps each to the directory of the same name, and raises KeyError naming any other provider |
| PathFinder.SymbolsPath | hyperdrive/Constants.py:138-143 | the symbols reference file is data/symbols.csv |
| PathFinder.SymbolFile | hyperdrive/Constants.py:145-183 | a per-symbol path fails exactly for an unknown provider, with that provider's KeyError; otherwise it is data/dir/provider/SYMBOL.csv, or SYMBOL.csv alone for an absolute symbol |
| PathFinder.DividendsPath | hyperdrive/Constants.py:145-153 | data/dividends/provider/SYMBOL.csv, with iexcloud as the default provider and KeyError for an unknown provider |
| PathFinder.SplitsPath | hyperdrive/Constants.py:155-163 | data/splits/provider/SYMBOL.csv, with iexcloud as the default provider and KeyError for an unknown provider |
| PathFinder.OhlcPath | hyperdrive/Constants.py:165-173 | data/ohlc/provider/SYMBOL.csv, with iexcloud as the default provider and KeyError for an unknown provider |
| PathFinder.SentimentPath | hyperdrive/Constants.py:175-183 | data/sentiment/provider/SYMBOL.csv, with stocktwits as the default provider and KeyError for an unknown provider |
| PathFinder.IntradayPath | hyperdrive/Constants.py:185-194 | KeyError exactly for an unknown provider, and the path always ends in date.csv. Its value is stated for every symbol and date: data/intraday/provider/SYMBOL/date.csv for an ordinary symbol, with separate clauses for the empty symbol, a relative or an absolute symbol with a trailing `/`, an absolute symbol, and an absolute date |
| PathFinder.UnemploymentPath | hyperdrive/Constants.py:196-200 | data/unemployment.csv |
| PathFinder.S2fPath | hyperdrive/Constants.py:202-206 | data/s2f.csv |
| PathFinder.DiffRibbonPath | hyperdrive/Constants.py:208-212 | data/diff_ribbon.csv |
| PathFinder.SoprPath | hyperdrive/Constants.py:214-218 | data/sopr.csv |
| PathFinder.SignalsPath | hyperdrive/Constants.py:220-225 | models/latest/signals.csv |
| PathFinder.OrdersPath | hyperdrive/Constants.py:227-232 | models/latest/orders.csv |
| PathFinder.ApiPath | hyperdrive/Constants.py:234-239 | data/api/endpoint.json with the endpoint not upper-cased; an absolute endpoint keeps only endpoint.json |
| PathFinder.SymbolCaseIgnored | hyperdrive/Constants.py:145-194 | every per-symbol builder gives the same result for a symbol and its upper-cased form |
| PathFinder.SymbolPathsDistinct | hyperdrive/Constants.py:145-183 | for a relative symbol and a known provider, the dividends, splits, ohlc and sentiment files are four different paths |
| PathFinder.AbsoluteSymbolPathsCoincide | hyperdrive/Constants.py:145-183 | for an absolute symbol and a known provider, the dividends, splits, ohlc and sentiment builders all return the upper-cased symbol followed by `.csv` |
| PathFinder.SymbolPathsEqualIff | hyperdrive/Constants.py:145-183 | for a known provider, any two symbols, relative or absolute, share a per-symbol file exactly when they upper-case to the same text |
| PathFinder.AbsoluteAndRelativeDiffer | hyperdrive/Constants.py:145-183 | for a known provider, an absolute and a relative symbol never share a per-symbol file |
| PathFinder.SymbolFileComponents | hyperdrive/Constants.py:145-183 | when neither the symbol nor the directory holds `/`, splitting a per-symbol path at `/` gives back data, the directory, the provider and SYMBOL.csv |
| PathFinder.Drop | hyperdrive/Constants.py:246-247 | Python's slice `s[n:]`: the first n characters followed by the result give back s, and the result is as long as what remains, empty once n reaches the length |
| PathFinder.AllPaths | hyperdrive/Constants.py:241-254 | at most one path per walked file, and every path returned passes the cache filter `Keep` or is a workflow path |
| PathFinder.AllPathsSelectsKept | hyperdrive/Constants.py:241-254 | `AllPaths` returns, in walk order, the recorded path `Candidate` of exactly the walked files whose path `Keep` accepts (no skip marker, or `.github`), at increasing positions |
| Selection.Filter | util/update.py:27 | an element is in the selection exactly when it is in the input and passes the test; every selected element passes, and the selection is no longer than the input |
| Selection.FilterSnoc | hyperdrive/Constants.py:252-253 | one more element extends the selection by that element exactly when it passes the test, and leaves it alone otherwise |
| Selection.KeptIndices | hyperdrive/Constants.py:245-253 | the kept positions are increasing, in range, and include a position exactly when its element passes the test |
| Selection.FilterSelects | hyperdrive/Constants.py:245-253 | `Filter` gives the elements at the kept positions, in order: the append loop neither reorders nor repeats |
| PathFinder.TruncateGivesRelativePath | hyperdrive/Constants.py:246-247 | with truncate and a non-empty path without trailing `/`, a file in the walked directory or one of its subdirectories is reported relative to that directory |
| PathFinder.TruncateAfterTrailingSlash | hyperdrive/Constants.py:246-247 | with truncate and a trailing `/` on the path, `Candidate` cuts the first character off a top-level file name and off the first subdirectory name |
| PathFinder.NoTruncateKeepsJoin | hyperdrive/Constants.py:246-247 | without truncate, the recorded path is os.path.join(root, file) |
| PosixPath.Join2Shape | hyperdrive/Constants.py:148-153 | one step of `Join2`: a relative part follows the path so far with at most one `/` between them, added exactly when the path so far is non-empty and lacks a trailing `/` |
| PosixPath.JoinIsSlashJoin | hyperdrive/Constants.py:148-153 | `Join` (os.path.join) equals the plain `/`-join `JoinWith` for non-empty parts without trailing `/` and with none absolute after the first |
| PosixPath.JoinWithEndsWithLast | hyperdrive/Constants.py:188-194 | a `/`-joined path ends with its last part |
| PosixPath.AbsoluteLastResets | hyperdrive/Constants.py:188-194 | an absolute last part is the whole result of `Join` |
| Text.UpperIdempotent | hyperdrive/Constants.py:152 | upper-casing an upper-cased symbol changes nothing |
| Text.UpperKeepsPunctuation | hyperdrive/Constants.py:192 | upper-casing neither creates nor removes a `/` or a `.` |
| Text.ContainsIffOccurs | hyperdrive/Constants.py:250-252 | Python's substring test holds exactly when the substring occurs at some offset |
| Text.ContainsInConcat | hyperdrive/Constants.py:250-252 | a marker found in either half of a path is found in the whole |
| PathFinder.RootMarkerRecorded | hyperdrive/Constants.py:244-247 | without truncate and for a file name not starting with `/` (as `os.walk` reports them), a marker in the directory a file was found in is a marker in its recorded path |
| PathFinder.WorkflowRootKept | hyperdrive/Constants.py:248-253 | without truncate and for a file name not starting with `/`, every file below a `.github` directory passes `Keep`, even inside a skipped directory |
| PathFinder.SkippedRootDropped | hyperdrive/Constants.py:248-253 | without truncate and for a file name not starting with `/`, a file below a directory whose path holds a skip marker fails `Keep` unless its recorded path holds `.github` |
| Text.SplitJoinWith | util/update.py:31 | splitting at `.` undoes joining with `.` when no piece contains a `.` |
| Text.JoinWithSplit | util/update.py:31 | joining the pieces of a split with `.` gives back the key, and no piece contains a `.` |
| Text.AllDigitsConcat | util/update.py:27 | a concatenation is all digits exactly when both halves are |
| Versions.ReleaseKeyIff | util/update.py:27 | a key passes the filter `IsReleaseKey` exactly when it has only digits and dots and at least one digit |
| Versions.Releases | util/update.py:27 | the kept keys are exactly the listed keys that pass the filter, never more of them than were listed |
| Versions.ReleasesInListingOrder | util/update.py:27 | the releases are the keys at exactly the positions that pass the filter, in listing order and with repetitions kept |
| Versions.ParseComponents | util/update.py:31 | the conversion fails exactly when a piece is empty; otherwise each integer is the decimal value of its piece |
| Versions.Components | util/update.py:30-31 | the sort key of a release exists exactly when no piece between dots is empty, and then holds one integer per piece, the decimal value of that piece |
| Versions.ComponentsDefinedIff | util/update.py:30-31 | a filtered key converts exactly when it neither starts nor ends with a dot and has no two dots in a row |
| Versions.LexLeIff | util/update.py:28-32 | Python's list order `LexLe` is: a prefix ranks below, else the first differing integer decides |
| Versions.LexLeReflexive | util/update.py:28-32 | every sort key ranks at or below itself |
| Versions.LexLeAntisymmetric | util/update.py:28-32 | two keys each at or below the other are equal |
| Versions.LexLeTransitive | util/update.py:28-32 | the list order is transitive |
| Versions.LexLeTotal | util/update.py:28-32 | any two sort keys are comparable |
| Versions.LastMaxIndex | util/update.py:28-32 | the position a stable ascending sort moves to the end: a maximum with nothing at or above it later in the list |
| Versions.LastMaximumUnique | util/update.py:28-32 | only one position has that property, so the release chosen is determined |
| Versions.ComponentsOfAll | util/update.py:28-32 | every release's sort key in order, or the first release whose conversion raises |
| Versions.Latest | util/update.py:26-32 | an empty release list raises IndexError. A ValueError names a release that fails to convert. Otherwise the result is a release ranked at or above every other release |
| VersionExamples.ComponentsOneTen | util/update.py:30-31 | the sort key of 1.10 is [1, 10] |
| VersionExamples.OneTenAfterOneNine | util/update.py:28-32 | 1.10 ranks strictly above 1.9 |
| VersionExamples.ReleaseCandidateFiltered | util/update.py:27 | 2.0rc1 is not a release |
| VersionExamples.DoubleDotMalformed | util/update.py:27-31 | 1..2 passes the filter and then fails to convert |
| VersionExamples.ReleasesOfListing | util/update.py:27 | a listing of 1.9, 1.10 and 2.0rc1 keeps 1.9 and 1.10 |
| VersionExamples.LatestOfListing | util/update.py:26-32 | the newest release of that listing is 1.10 |
| VersionExamples.LatestOfTwo | util/update.py:28-32 | of two convertible releases, the one ranked strictly higher is the newest |
| Update.NextVersion | util/update.py:33-41 | a skipped package keeps its pin, any other package takes the newest release, and the pin changes exactly when the script would upgrade |
| Update.Bump | util/update.py:24-43 | a requirement keeps its name and gets its next version when the newest release is known; otherwise the update fails naming the package and the cause |
| Update.UpdateAll | util/update.py:24-43 | the update succeeds exactly when every package's newest release is known. It then bumps each requirement in order; otherwise it reports the first failing package |
| Update.UpdateFromReleases | util/update.py:24-43 | the script succeeds exactly when every package has a newest release; otherwise it reports the first package whose lookup fails, with its cause. On success each new pin is the next version computed from the newest of that package's listed releases |
| Update.UpdateAllIdempotent | util/update.py:33-43 | running the update again against the same releases changes nothing |
| Requirements.NonSpaceRun | util/update.py:22 | the greedy `\S*` takes a prefix free of whitespace, stopped only by whitespace or the end |
| Requirements.MatchTail | util/update.py:22 | after `==`, at most one whitespace character is skipped, and the second group is the longest whitespace-free run that follows: the match ends at whitespace or at the end of the text |
| Requirements.MatchFrom | util/update.py:22 | a match starts at the beginning of the text; its first group is a prefix of it, and at least `==` is consumed |
| Requirements.MatchFromNoneIff | util/update.py:22 | `Match` fails exactly when `==`, directly or after one whitespace character, follows no prefix the first group may take |
| Requirements.MatchFromLongest | util/update.py:22 | the first group is the longest prefix that `==` can follow, as the greedy `\S*` backtracks |
| Requirements.MatchFromStep | util/update.py:22 | one backtracking step: stop where `==` can follow, else shorten the first group by one character |
| Requirements.MatchFormattedLine | util/update.py:22-23 | when neither the name nor the version holds whitespace, the pattern reads a written `name == version` line back as that name and version |
| Requirements.MatchCompactLine | util/update.py:22-23 | a `name==version` line reads as that name and version when the version is non-empty and has no `=`; with an empty version, `\s?` may take the newline and the next line becomes the version |
| Requirements.NoMatchAfterNewline | util/update.py:22-23 | no match starts at a newline unless `==` follows it directly |
| Requirements.LineRoundTrip | util/update.py:22-47 | when neither the name nor the version holds whitespace, one line written by `FormatLine` reads back through `FindAll` as exactly its requirement |
| Requirements.FindAllLine | util/update.py:22-47 | when neither the name nor the version holds whitespace, findall on text starting with a written line yields that requirement and goes on after the line |
| Requirements.LaterEqEqNameMisread | util/update.py:22-47 | when the first written line holds no whitespace and the second name starts with `==`, `FindAll` reads the first requirement and then an empty name, so the round trip fails |
| Requirements.RenderRoundTrip | util/update.py:22-47 | `FindAll` on the text `Render` writes gives back the requirements written, in order, when names and versions have no whitespace and no name starts with `==` |

## Left out

- TimeTraveller: its implementation is not part of this model.
- `PathFinder.make_path`: only creates directories on disk.
- The Windows flavour of `os.path.join` (`ntpath`, with drive letters and `\` separators): only the POSIX join is modelled.
- The `os.walk` traversal itself: the files it reports are the parameter `walk` of `PathFinder.AllPaths`, in the order reported.
- Reading `config.env` with dotenv, and `os.environ`: the value of a variable is the parameter of `Constants.EnvBool`. The `DEV`, `CI` and `TEST` flags are that function applied to those variables.
- `PREF_EXCHANGE`, the time zone, the fee and tolerance floats, the column-name constants and the exchange symbol table: plain data, with no logic to model.
- The HTTP request to PyPI and a response without a `releases` field: `Versions.Latest` takes the release keys as a parameter.
- `pip install`, the choice between `python` and `python3`, and `exit(code)` on a failed install: the model assumes every install succeeds.
- Reading and writing `requirements.txt`: `Requirements.FindAll` takes the file's text, and `Requirements.Render` gives the text written.
- Unicode: `upper`, `lower` and `isdigit` are modelled on ASCII letters and digits only. `\s` and `isspace` are modelled with their full character set.
- Python's `int()` also accepts non-ASCII digits: excluded by the ASCII-only `isdigit` above.
- Versions.Latest: when two releases have equal sort keys (`1.0` and `01.0`), the contract only says the result is a maximum. The choice of the later one is stated by `Versions.LastMaxIndex`, which `Latest` uses.
- PathFinder.DividendsPath, SplitsPath, OhlcPath, SentimentPath: the default arguments are stated by the Dafny default parameter values, not by a separate contract.
- Requirements.FindAll: properties are proved for text the script itself writes and for compact `name==version` lines. Other layouts (comments, extras such as `pkg[extra]==1`, `>=` pins) are read by the same definition but have no lemma.

=== FILE: constants.dfy ===
/** The environment flag reader and the directory names of
    `hyperdrive/Constants.py`. */
module Constants {
  import opened Results
  import opened Text

  /** `get_env_bool(var_name)`: `value` is what `os.environ.get(var_name)`
      returns (None when the variable is unset). The flag is set exactly
      when the value is non-empty and lower-cases to `true`. */
  function EnvBool(value: Option<string>): (b: bool)
    ensures b <==> value.Some? && |value.value| == 4
                   && value.value[0] in "tT" && value.value[1] in "rR"
                   && value.value[2] in "uU" && value.value[3] in "eE"
  {
    if value.None? then false
    else
      LowerIsTrue(value.value);
      |value.value| > 0 && Lower(value.value) == "true"
  }

  lemma LowerIsTrue(s: string)
    ensures Lower(s) == "true" <==> |s| == 4 && s[0] in "tT" && s[1] in "rR"
                                    && s[2] in "uU" && s[3] in "eE"
  {
    if |s| == 4 && s[0] in "tT" && s[1] in "rR" && s[2] in "uU" && s[3] in "eE" {
      assert Lower(s)[0] == 't' && Lower(s)[1] == 'r' && Lower(s)[2] == 'u' && Lower(s)[3] == 'e';
    }
    if Lower(s) == "true" {
      assert Lower(s)[0] == 't' && Lower(s)[1] == 'r' && Lower(s)[2] == 'u' && Lower(s)[3] == 'e';
      assert LowerChar(s[0]) == 't' && LowerChar(s[1]) == 'r' && LowerChar(s[2]) == 'u' && LowerChar(s[3]) == 'e';
    }
  }

  /** Unset and empty variables both read as false. */
  lemma EnvBoolUnsetOrEmpty()
    ensures !EnvBool(None)
    ensures !EnvBool(Some(""))
  {
  }

  /** Only the case of the letters is ignored: two values with the same
      lower-case form read the same. */
  lemma EnvBoolIgnoresCase(a: string, b: string)
    requires Lower(a) == Lower(b)
    ensures EnvBool(Some(a)) == EnvBool(Some(b))
  {
    assert |a| == |b|;
  }

  // Directory names
  const DataDir := "data"
  const ApiDir := "api"
  const DivDir := "dividends"
  const SplitDir := "splits"
  const OhlcDir := "ohlc"
  const SentDir := "sentiment"
  const IntraDir := "intraday"
  const IexDir := "iexcloud"
  const PolyDir := "polygon"
  const TwitDir := "stocktwits"
  const ModelsDir := "models"

  /** The `folders` table: data provider to the directory holding its files. */
  const Folders: map<string, string> := map[
    "iexcloud" := IexDir,
    "polygon" := PolyDir,
    "stocktwits" := TwitDir
  ]

  datatype LookupError = KeyError(key: string)

  /** `folders[provider]`, which raises `KeyError` for a provider outside the table. */
  function Folder(provider: string): (r: Result<string, LookupError>)
    ensures r.Ok? <==> provider == "iexcloud" || provider == "polygon" || provider == "stocktwits"
    ensures r.Ok? ==> r.value == provider
    ensures r.Err? ==> r.error == KeyError(provider)
  {
    if provider in Folders then Ok(Folders[provider]) else Err(KeyError(provider))
  }
}

=== FILE: path_finder.dfy ===
/** The path builders of class `PathFinder` in `hyperdrive/Constants.py`.
    Each builder is the `os.path.join` of fixed directory names, a provider
    folder from the `folders` table and the upper-cased symbol. */
module PathFinder {
  import opened Results
  import opened Text
  import opened PosixPath
  import opened Constants
  import opened Selection

  /** The file name a symbol's data is stored under: `f'{symbol.upper()}.csv'`. */
  function CsvName(symbol: string): (name: string) {
    Upper(symbol) + ".csv"
  }

  /** The common shape of the four per-symbol builders:
      `os.path.join(DATA_DIR, dir, folders[provider], f'{symbol.upper()}.csv')`. */
  function SymbolFile(dir: string, symbol: string, provider: string): (r: Result<string, LookupError>)
    requires |dir| > 0 && !EndsWithSep(dir) && !IsAbsolute(dir)
    ensures r.Err? <==> provider !in Folders
    ensures r.Err? ==> r.error == KeyError(provider)
    ensures r.Ok? && !IsAbsolute(symbol) ==> r.value == "data/" + dir + "/" + provider + "/" + Upper(symbol) + ".csv"
    ensures r.Ok? && IsAbsolute(symbol) ==> r.value == Upper(symbol) + ".csv"
  {
    match Folder(provider)
    case Err(e) => Err(e)
    case Ok(folder) =>
      var name := CsvName(symbol);
      JoinOf4(DataDir, dir, folder, name);
      if IsAbsolute(symbol) then
        assert IsAbsolute(name);
        Ok(Join([DataDir, dir, folder, name]))
      else
        assert !IsAbsolute(name) by {
          if |symbol| > 0 {
            UpperKeepsPunctuation(symbol, 0);
          }
        }
        FourPlainParts(dir, folder, name);
        Ok(Join([DataDir, dir, folder, name]))
  }

  lemma FourPlainParts(dir: string, folder: string, name: string)
    requires |dir| > 0 && !EndsWithSep(dir) && !IsAbsolute(dir)
    requires |folder| > 0 && !EndsWithSep(folder) && !IsAbsolute(folder)
    requires !IsAbsolute(name)
    ensures Join2(Join2(Join2(DataDir, dir), folder), name) == "data/" + dir + "/" + folder + "/" + name
  {
    Join2Plain(DataDir, dir);
    var a := Join2(DataDir, dir);
    Join2Plain(a, folder);
    var b := Join2(a, folder);
    Join2Plain(b, name);
  }

  /** `get_symbols_path()` */
  function SymbolsPath(): (p: string)
    ensures p == "data/symbols.csv"
  {
    JoinOf2(DataDir, "symbols.csv");
    Join([DataDir, "symbols.csv"])
  }

  /** `get_dividends_path(symbol, provider='iexcloud')` */
  function DividendsPath(symbol: string, provider: string := "iexcloud"): (r: Result<string, LookupError>)
    ensures r.Err? <==> provider !in Folders
    ensures r.Err? ==> r.error == KeyError(provider)
    ensures r.Ok? && !IsAbsolute(symbol) ==> r.value == "data/dividends/" + provider + "/" + Upper(symbol) + ".csv"
    ensures r.Ok? && IsAbsolute(symbol) ==> r.value == Upper(symbol) + ".csv"
  {
    assert "data/" + DivDir + "/" == "data/dividends/";
    SymbolFile(DivDir, symbol, provider)
  }

  /** `get_splits_path(symbol, provider='iexcloud')` */
  function SplitsPath(symbol: string, provider: string := "iexcloud"): (r: Result<string, LookupError>)
    ensures r.Err? <==> provider !in Folders
    ensures r.Err? ==> r.error == KeyError(provider)
    ensures r.Ok? && !IsAbsolute(symbol) ==> r.value == "data/splits/" + provider + "/" + Upper(symbol) + ".csv"
    ensures r.Ok? && IsAbsolute(symbol) ==> r.value == Upper(symbol) + ".csv"
  {
    assert "data/" + SplitDir + "/" == "data/splits/";
    SymbolFile(SplitDir, symbol, provider)
  }

  /** `get_ohlc_path(symbol, provider='iexcloud')` */
  function OhlcPath(symbol: string, provider: string := "iexcloud"): (r: Result<string, LookupError>)
    ensures r.Err? <==> provider !in Folders
    ensures r.Err? ==> r.error == KeyError(provider)
    ensures r.Ok? && !IsAbsolute(symbol) ==> r.value == "data/ohlc/" + provider + "/" + Upper(symbol) + ".csv"
    ensures r.Ok? && IsAbsolute(symbol) ==> r.value == Upper(symbol) + ".csv"
  {
    assert "data/" + OhlcDir + "/" == "data/ohlc/";
    SymbolFile(OhlcDir, symbol, provider)
  }

  /** `get_sentiment_path(symbol, provider='stocktwits')` */
  function SentimentPath(symbol: string, provider: string := "stocktwits"): (r: Result<string, LookupError>)
    ensures r.Err? <==> provider !in Folders
    ensures r.Err? ==> r.error == KeyError(provider)
    ensures r.Ok? && !IsAbsolute(symbol) ==> r.value == "data/sentiment/" + provider + "/" + Upper(symbol) + ".csv"
    ensures r.Ok? && IsAbsolute(symbol) ==> r.value == Upper(symbol) + ".csv"
  {
    assert "data/" + SentDir + "/" == "data/sentiment/";
    SymbolFile(SentDir, symbol, provider)
  }

  /** `get_intraday_path(symbol, date, provider='iexcloud')`: the symbol
      becomes a directory and the date, not upper-cased, the file name. */
  function IntradayPath(symbol: string, date: string, provider: string := "iexcloud"): (r: Result<string, LookupError>)
    ensures r.Err? <==> provider !in Folders
    ensures r.Err? ==> r.error == KeyError(provider)
    ensures r.Ok? ==> |r.value| >= |date| + 4 && r.value[|r.value| - |date| - 4..] == date + ".csv"
    ensures r.Ok? && |symbol| > 0 && !IsAbsolute(symbol) && !EndsWithSep(symbol) && !IsAbsolute(date) ==>
              r.value == "data/intraday/" + provider + "/" + Upper(symbol) + "/" + date + ".csv"
    ensures r.Ok? && |symbol| == 0 && !IsAbsolute(date) ==>
              r.value == "data/intraday/" + provider + "/" + date + ".csv"
    ensures r.Ok? && !IsAbsolute(symbol) && EndsWithSep(symbol) && !IsAbsolute(date) ==>
              r.value == "data/intraday/" + provider + "/" + Upper(symbol) + date + ".csv"
    ensures r.Ok? && IsAbsolute(symbol) && !EndsWithSep(symbol) && !IsAbsolute(date) ==>
              r.value == Upper(symbol) + "/" + date + ".csv"
    ensures r.Ok? && IsAbsolute(symbol) && EndsWithSep(symbol) && !IsAbsolute(date) ==>
              r.value == Upper(symbol) + date + ".csv"
    ensures r.Ok? && IsAbsolute(date) ==> r.value == date + ".csv"
  {
    match Folder(provider)
    case Err(e) => Err(e)
    case Ok(folder) =>
      IntradayShape(symbol, date, folder);
      Ok(Join([DataDir, IntraDir, folder, Upper(symbol), date + ".csv"]))
  }

  lemma IntradayShape(symbol: string, date: string, folder: string)
    requires |folder| > 0 && !EndsWithSep(folder) && !IsAbsolute(folder)
    ensures var p := Join([DataDir, IntraDir, folder, Upper(symbol), date + ".csv"]);
      && |p| >= |date| + 4 && p[|p| - |date| - 4..] == date + ".csv"
      && (|symbol| > 0 && !IsAbsolute(symbol) && !EndsWithSep(symbol) && !IsAbsolute(date) ==>
            p == "data/intraday/" + folder + "/" + Upper(symbol) + "/" + date + ".csv")
      && (|symbol| == 0 && !IsAbsolute(date) ==> p == "data/intraday/" + folder + "/" + date + ".csv")
      && (!IsAbsolute(symbol) && EndsWithSep(symbol) && !IsAbsolute(date) ==>
            p == "data/intraday/" + folder + "/" + Upper(symbol) + date + ".csv")
      && (IsAbsolute(symbol) && !EndsWithSep(symbol) && !IsAbsolute(date) ==> p == Upper(symbol) + "/" + date + ".csv")
      && (IsAbsolute(symbol) && EndsWithSep(symbol) && !IsAbsolute(date) ==> p == Upper(symbol) + date + ".csv")
      && (IsAbsolute(date) ==> p == date + ".csv")
  {
    JoinOf5(DataDir, IntraDir, folder, Upper(symbol), date + ".csv");
    IntradayBase(folder);
    UpperKeepsShape(symbol);
    IntradayTail("data/intraday/" + folder, Upper(symbol), date);
  }

  lemma IntradayBase(folder: string)
    requires |folder| > 0 && !EndsWithSep(folder) && !IsAbsolute(folder)
    ensures Join2(Join2(DataDir, IntraDir), folder) == "data/intraday/" + folder
  {
    Join2Plain(DataDir, IntraDir);
    Join2Plain(Join2(DataDir, IntraDir), folder);
  }

  /** Upper-casing keeps a path's length, its leading and its trailing `/`. */
  lemma UpperKeepsShape(s: string)
    ensures |Upper(s)| == |s|
    ensures IsAbsolute(Upper(s)) <==> IsAbsolute(s)
    ensures EndsWithSep(Upper(s)) <==> EndsWithSep(s)
  {
    if |s| > 0 {
      UpperKeepsPunctuation(s, 0);
      UpperKeepsPunctuation(s, |s| - 1);
    }
  }

  /** The last two joins of `get_intraday_path`, onto the provider
      directory `b`. */
  lemma IntradayTail(b: string, dir: string, date: string)
    requires |b| > 0 && !EndsWithSep(b)
    ensures var p := Join2(Join2(b, dir), date + ".csv");
      && |p| >= |date| + 4 && p[|p| - |date| - 4..] == date + ".csv"
      && (|dir| > 0 && !IsAbsolute(dir) && !EndsWithSep(dir) && !IsAbsolute(date) ==> p == b + "/" + dir + "/" + date + ".csv")
      && (|dir| == 0 && !IsAbsolute(date) ==> p == b + "/" + date + ".csv")
      && (!IsAbsolute(dir) && EndsWithSep(dir) && !IsAbsolute(date) ==> p == b + "/" + dir + date + ".csv")
      && (IsAbsolute(dir) && !EndsWithSep(dir) && !IsAbsolute(date) ==> p == dir + "/" + date + ".csv")
      && (IsAbsolute(dir) && EndsWithSep(dir) && !IsAbsolute(date) ==> p == dir + date + ".csv")
      && (IsAbsolute(date) ==> p == date + ".csv")
  {
    var name := date + ".csv";
    Join2Suffix(Join2(b, dir), name);
    if IsAbsolute(date) {
      assert name[0] == date[0];
    } else {
      assert !IsAbsolute(name);
      if |dir| == 0 {
        assert Join2(b, dir) == b + "/";
      } else if !IsAbsolute(dir) {
        Join2Plain(b, dir);
      }
    }
  }

  /** `get_unemployment_path()` */
  function UnemploymentPath(): (p: string)
    ensures p == "data/unemployment.csv"
  {
    JoinOf2(DataDir, "unemployment.csv");
    Join([DataDir, "unemployment.csv"])
  }

  /** `get_s2f_path()` */
  function S2fPath(): (p: string)
    ensures p == "data/s2f.csv"
  {
    JoinOf2(DataDir, "s2f.csv");
    Join([DataDir, "s2f.csv"])
  }

  /** `get_diff_ribbon_path()` */
  function DiffRibbonPath(): (p: string)
    ensures p == "data/diff_ribbon.csv"
  {
    JoinOf2(DataDir, "diff_ribbon.csv");
    Join([DataDir, "diff_ribbon.csv"])
  }

  /** `get_sopr_path()` */
  function SoprPath(): (p: string)
    ensures p == "data/sopr.csv"
  {
    JoinOf2(DataDir, "sopr.csv");
    Join([DataDir, "sopr.csv"])
  }

  /** `get_signals_path()` */
  function SignalsPath(): (p: string)
    ensures p == "models/latest/signals.csv"
  {
    JoinOf3(ModelsDir, "latest", "signals.csv");
    Join([ModelsDir, "latest", "signals.csv"])
  }

  /** `get_orders_path()` */
  function OrdersPath(): (p: string)
    ensures p == "models/latest/orders.csv"
  {
    JoinOf3(ModelsDir, "latest", "orders.csv");
    Join([ModelsDir, "latest", "orders.csv"])
  }

  /** `get_api_path(endpoint)`: the endpoint is used as given, not upper-cased. */
  function ApiPath(endpoint: string): (p: string)
    ensures !IsAbsolute(endpoint) ==> p == "data/api/" + endpoint + ".json"
    ensures IsAbsolute(endpoint) ==> p == endpoint + ".json"
  {
    JoinOf3(DataDir, ApiDir, endpoint + ".json");
    Join([DataDir, ApiDir, endpoint + ".json"])
  }

  /** The symbol's case never matters: every per-symbol builder gives the
      same path for `symbol` and for its upper-cased form. */
  lemma SymbolCaseIgnored(symbol: string, date: string, provider: string)
    ensures DividendsPath(symbol, provider) == DividendsPath(Upper(symbol), provider)
    ensures SplitsPath(symbol, provider) == SplitsPath(Upper(symbol), provider)
    ensures OhlcPath(symbol, provider) == OhlcPath(Upper(symbol), provider)
    ensures SentimentPath(symbol, provider) == SentimentPath(Upper(symbol), provider)
    ensures IntradayPath(symbol, date, provider) == IntradayPath(Upper(symbol), date, provider)
  {
    UpperIdempotent(symbol);
  }

  /** An absolute symbol discards the directory prefix: the four per-symbol
      builders all give the same path. */
  lemma AbsoluteSymbolPathsCoincide(symbol: string, provider: string)
    requires provider in Folders
    requires IsAbsolute(symbol)
    ensures DividendsPath(symbol, provider) == Ok(Upper(symbol) + ".csv")
    ensures SplitsPath(symbol, provider) == DividendsPath(symbol, provider)
    ensures OhlcPath(symbol, provider) == DividendsPath(symbol, provider)
    ensures SentimentPath(symbol, provider) == DividendsPath(symbol, provider)
  {
  }

  /** For a relative symbol and a known provider the four per-symbol
      builders name four different files: their paths differ in the second
      component. */
  lemma SymbolPathsDistinct(symbol: string, provider: string)
    requires provider in Folders
    requires !IsAbsolute(symbol)
    ensures DividendsPath(symbol, provider) != SplitsPath(symbol, provider)
    ensures DividendsPath(symbol, provider) != OhlcPath(symbol, provider)
    ensures DividendsPath(symbol, provider) != SentimentPath(symbol, provider)
    ensures SplitsPath(symbol, provider) != OhlcPath(symbol, provider)
    ensures SplitsPath(symbol, provider) != SentimentPath(symbol, provider)
    ensures OhlcPath(symbol, provider) != SentimentPath(symbol, provider)
  {
    SecondComponentAt(DivDir, symbol, provider);
    SecondComponentAt(SplitDir, symbol, provider);
    SecondComponentAt(OhlcDir, symbol, provider);
    SecondComponentAt(SentDir, symbol, provider);
  }

  /** Characters 5 and 6 of a per-symbol path are the first two of its directory. */
  lemma SecondComponentAt(dir: string, symbol: string, provider: string)
    requires |dir| >= 2 && !EndsWithSep(dir) && !IsAbsolute(dir)
    requires provider in Folders
    requires !IsAbsolute(symbol)
    ensures SymbolFile(dir, symbol, provider).Ok?
    ensures |SymbolFile(dir, symbol, provider).value| > 6
    ensures SymbolFile(dir, symbol, provider).value[5] == dir[0]
    ensures SymbolFile(dir, symbol, provider).value[6] == dir[1]
  {
    var p := SymbolFile(dir, symbol, provider).value;
    var head := "data/" + dir;
    assert p == head + ("/" + provider + "/" + Upper(symbol) + ".csv");
    assert head[5] == dir[0] && head[6] == dir[1];
  }

  /** Two symbols share a per-symbol path exactly when they upper-case to
      the same string. */
  lemma SymbolPathsEqualIff(dir: string, s1: string, s2: string, provider: string)
    requires |dir| > 0 && !EndsWithSep(dir) && !IsAbsolute(dir)
    requires provider in Folders
    ensures SymbolFile(dir, s1, provider) == SymbolFile(dir, s2, provider) <==> Upper(s1) == Upper(s2)
  {
    UpperKeepsShape(s1);
    UpperKeepsShape(s2);
    var p1 := SymbolFile(dir, s1, provider).value;
    var p2 := SymbolFile(dir, s2, provider).value;
    if !IsAbsolute(s1) && !IsAbsolute(s2) {
      var prefix := "data/" + dir + "/" + provider + "/";
      assert p1 == prefix + (Upper(s1) + ".csv");
      assert p2 == prefix + (Upper(s2) + ".csv");
      if p1 == p2 {
        assert Upper(s1) == p1[|prefix|..|prefix| + |Upper(s1)|];
        assert Upper(s2) == p2[|prefix|..|prefix| + |Upper(s2)|];
      }
    } else if IsAbsolute(s1) && IsAbsolute(s2) {
      if p1 == p2 {
        assert Upper(s1) == p1[..|Upper(s1)|];
        assert Upper(s2) == p2[..|Upper(s2)|];
      }
    } else {
      AbsoluteAndRelativeDiffer(dir, s1, s2, provider);
    }
  }

  /** An absolute symbol's path starts with `/`, a relative one's with `data/`. */
  lemma AbsoluteAndRelativeDiffer(dir: string, s1: string, s2: string, provider: string)
    requires |dir| > 0 && !EndsWithSep(dir) && !IsAbsolute(dir)
    requires provider in Folders
    requires IsAbsolute(s1) != IsAbsolute(s2)
    ensures SymbolFile(dir, s1, provider) != SymbolFile(dir, s2, provider)
    ensures Upper(s1) != Upper(s2)
  {
    UpperKeepsShape(s1);
    UpperKeepsShape(s2);
    var p1 := SymbolFile(dir, s1, provider).value;
    var p2 := SymbolFile(dir, s2, provider).value;
    if IsAbsolute(s1) {
      assert p1[0] == Upper(s1)[0] == '/';
      assert p2[0] == 'd';
    } else {
      assert p2[0] == Upper(s2)[0] == '/';
      assert p1[0] == 'd';
    }
  }

  /** Splitting a per-symbol path at `/` gives back its four components in
      order, when the symbol holds no `/`. */
  lemma SymbolFileComponents(dir: string, symbol: string, provider: string)
    requires |dir| > 0 && '/' !in dir
    requires provider in Folders
    requires '/' !in symbol
    ensures SymbolFile(dir, symbol, provider).Ok?
    ensures Split(SymbolFile(dir, symbol, provider).value, '/') == [DataDir, dir, provider, CsvName(symbol)]
  {
    var name := CsvName(symbol);
    assert '/' !in name by {
      forall i | 0 <= i < |symbol|
        ensures Upper(symbol)[i] != '/'
      {
        UpperKeepsPunctuation(symbol, i);
      }
    }
    assert !IsAbsolute(symbol);
    var parts := [DataDir, dir, provider, name];
    assert JoinWith(parts[2..], '/') == provider + "/" + name by {
      assert parts[2..][1..] == [name];
    }
    assert JoinWith(parts[1..], '/') == dir + "/" + (provider + "/" + name) by {
      assert parts[1..][1..] == parts[2..];
    }
    assert JoinWith(parts, '/') == "data/" + dir + "/" + provider + "/" + name;
    assert SymbolFile(dir, symbol, provider).value == JoinWith(parts, '/');
    assert '/' !in DataDir && '/' !in provider;
    SplitJoinWith(parts, '/');
  }

  // get_all_paths: the filter applied to the files `os.walk` reports

  /** One file reported by `os.walk`: the directory it was found in and its name. */
  datatype WalkEntry = WalkEntry(root: string, file: string)

  /** Substrings that mark caches and tooling files to leave out. */
  const SkipMarkers: seq<string> := ["__pycache__/", ".pytest", ".git/", ".ipynb", ".env"]

  /** Substring that keeps a path whatever else it contains (workflow files). */
  const KeepMarker := ".github"

  /** Python's `s[n:]` for `n >= 0`: empty once `n` reaches the length. */
  function Drop(s: string, n: nat): (r: string)
    ensures |r| == if n <= |s| then |s| - n else 0
    ensures n <= |s| ==> s == s[..n] + r
  {
    if n >= |s| then "" else s[n..]
  }

  /** The path recorded for one walked file: `os.path.join(root, file)`,
      minus the first `len(path) + 1` characters when `truncate` is set. */
  function Candidate(path: string, e: WalkEntry, truncate: bool): (c: string) {
    Drop(Join2(e.root, e.file), if truncate then |path| + 1 else 0)
  }

  /** A recorded path is kept when it holds none of the skip markers, or
      when it holds the workflow marker. */
  predicate Keep(c: string) {
    (forall i :: 0 <= i < |SkipMarkers| ==> !Contains(c, SkipMarkers[i])) || Contains(c, KeepMarker)
  }

  /** Without `truncate`, the recorded path of a file begins with the
      directory it was found in, so a marker in that directory is a marker
      in the recorded path. */
  lemma RootMarkerRecorded(path: string, e: WalkEntry, m: string)
    requires !IsAbsolute(e.file)
    requires Contains(e.root, m)
    ensures Contains(Candidate(path, e, false), m)
  {
    var c := Candidate(path, e, false);
    assert c == Join2(e.root, e.file);
    Join2Shape(e.root, e.file);
    assert c == e.root + c[|e.root|..];
    ContainsInConcat(e.root, c[|e.root|..], m);
  }

  /** Every file found below a `.github` directory is kept, even inside a
      `.git/` or cache directory. */
  lemma WorkflowRootKept(path: string, e: WalkEntry)
    requires !IsAbsolute(e.file)
    requires Contains(e.root, KeepMarker)
    ensures Keep(Candidate(path, e, false))
  {
    RootMarkerRecorded(path, e, KeepMarker);
  }

  /** A file found below a directory whose path holds a skip marker is left
      out, unless its recorded path holds `.github`. */
  lemma SkippedRootDropped(path: string, e: WalkEntry, i: nat)
    requires !IsAbsolute(e.file)
    requires i < |SkipMarkers| && Contains(e.root, SkipMarkers[i])
    requires !Contains(Candidate(path, e, false), KeepMarker)
    ensures !Keep(Candidate(path, e, false))
  {
    RootMarkerRecorded(path, e, SkipMarkers[i]);
  }

  /** The path recorded for each walked file, in walk order. */
  function Recorded(path: string, walk: seq<WalkEntry>, truncate: bool): (cs: seq<string>)
    ensures |cs| == |walk|
  {
    seq(|walk|, i requires 0 <= i < |walk| => Candidate(path, walk[i], truncate))
  }

  /** `get_all_paths(path, truncate)` over the files `walk` that `os.walk(path)`
      reports, in the order it reports them: the loop appends the recorded
      paths that are kept. */
  function AllPaths(path: string, walk: seq<WalkEntry>, truncate: bool): (paths: seq<string>)
    ensures |paths| <= |walk|
    ensures forall k :: 0 <= k < |paths| ==> Keep(paths[k])
  {
    Filter(Recorded(path, walk, truncate), Keep)
  }

  /** The result of `get_all_paths` is the order-preserving subsequence of
      recorded paths at exactly the kept positions. */
  lemma AllPathsSelectsKept(path: string, walk: seq<WalkEntry>, truncate: bool)
    ensures var idx := KeptIndices(Recorded(path, walk, truncate), Keep);
      && |AllPaths(path, walk, truncate)| == |idx|
      && (forall k, l :: 0 <= k < l < |idx| ==> idx[k] < idx[l])
      && (forall i :: 0 <= i < |walk| ==> (i in idx <==> Keep(Candidate(path, walk[i], truncate))))
      && forall k :: 0 <= k < |idx| ==> idx[k] < |walk| && AllPaths(path, walk, truncate)[k] == Candidate(path, walk[idx[k]], truncate)
  {
    FilterSelects(Recorded(path, walk, truncate), Keep);
  }

  /** With `truncate`, the recorded path of a file found under `path` is its
      path relative to `path`, when `path` has no trailing `/`. */
  lemma TruncateGivesRelativePath(path: string, sub: string, file: string)
    requires |path| > 0 && !EndsWithSep(path)
    requires |file| > 0 && !IsAbsolute(file)
    requires |sub| > 0 && !IsAbsolute(sub) && !EndsWithSep(sub)
    ensures Candidate(path, WalkEntry(path, file), true) == file
    ensures Candidate(path, WalkEntry(path + "/" + sub, file), true) == sub + "/" + file
  {
    Join2Plain(path, file);
    assert (path + "/" + file)[|path| + 1..] == file;
    var root := path + "/" + sub;
    assert !EndsWithSep(root) by {
      assert root[|root| - 1] == sub[|sub| - 1];
    }
    Join2Plain(root, file);
    assert (root + "/" + file)[|path| + 1..] == sub + "/" + file;
  }

  /** With `truncate` and a `path` given with a trailing `/`, the first
      character of each top-level file name, and of each top-level
      subdirectory name, is cut off as well: `os.walk` reports the roots
      below `path` without a doubled `/`, so the slice removes one character
      too many. */
  lemma TruncateAfterTrailingSlash(path: string, sub: string, file: string)
    requires EndsWithSep(path)
    requires |file| > 0 && !IsAbsolute(file)
    requires |sub| > 0 && !IsAbsolute(sub) && !EndsWithSep(sub)
    ensures Candidate(path, WalkEntry(path, file), true) == file[1..]
    ensures Candidate(path, WalkEntry(path + sub, file), true) == sub[1..] + "/" + file
  {
    assert (path + file)[|path| + 1..] == file[1..];
    var root := path + sub;
    assert !EndsWithSep(root) by {
      assert root[|root| - 1] == sub[|sub| - 1];
    }
    Join2Plain(root, file);
    assert (root + "/" + file)[|path| + 1..] == sub[1..] + "/" + file;
  }

  /** Without `truncate`, the recorded path is the joined path itself. */
  lemma NoTruncateKeepsJoin(path: string, e: WalkEntry)
    ensures Candidate(path, e, false) == Join([e.root, e.file])
  {
    JoinOf2(e.root, e.file);
  }
}

=== FILE: posix_path.dfy ===
/** Python's `os.path.join` on POSIX (`posixpath.join`), folded over its
    arguments exactly as the library does: an absolute argument discards
    everything before it, and a separator is only inserted when the path
    built so far is non-empty and does not already end in `/`. */
module PosixPath {
  import opened Text

  predicate IsAbsolute(p: string) {
    |p| > 0 && p[0] == '/'
  }

  predicate EndsWithSep(p: string) {
    |p| > 0 && p[|p| - 1] == '/'
  }

  /** One step of `posixpath.join(a, b)`. */
  function Join2(a: string, b: string): (r: string)
    ensures IsAbsolute(b) ==> r == b
    ensures !IsAbsolute(b) && |a| > 0 && !EndsWithSep(a) ==> r == a + "/" + b
  {
    if IsAbsolute(b) then b
    else if |a| == 0 || EndsWithSep(a) then a + b
    else a + "/" + b
  }

  /** A relative `b` is appended to `a` with at most one `/` between them,
      and what precedes `b` ends in `/` unless `a` is empty: the separator
      is added exactly when `a` is non-empty and lacks one. */
  lemma Join2Shape(a: string, b: string)
    requires !IsAbsolute(b)
    ensures var r := Join2(a, b);
      && |a| + |b| <= |r| <= |a| + |b| + 1
      && r[..|a|] == a && r[|r| - |b|..] == b
      && (|r| == |a| + |b| <==> |a| == 0 || EndsWithSep(a))
      && (|a| > 0 ==> EndsWithSep(r[..|r| - |b|]))
  {
    var r := Join2(a, b);
    if |a| > 0 && !EndsWithSep(a) {
      assert r[..|r| - |b|] == a + "/";
    } else if |a| > 0 {
      assert r[..|r| - |b|] == a;
    }
  }

  /** `os.path.join(*parts)`; Python demands at least one argument. */
  function Join(parts: seq<string>): (p: string)
    requires |parts| >= 1
    decreases |parts|
  {
    if |parts| == 1 then parts[0]
    else Join2(Join(parts[..|parts| - 1]), parts[|parts| - 1])
  }

  /** Parts that make `os.path.join` a plain `/`-join: every part but the
      last is non-empty and has no trailing `/`, and no part but the first
      is absolute. */
  predicate PlainParts(parts: seq<string>) {
    && (forall i :: 0 <= i < |parts| - 1 ==> |parts[i]| > 0 && !EndsWithSep(parts[i]))
    && (forall i :: 0 < i < |parts| ==> !IsAbsolute(parts[i]))
  }

  /** On plain parts `os.path.join` is `"/".join`. */
  lemma {:induction false} JoinIsSlashJoin(parts: seq<string>)
    requires |parts| >= 1
    requires PlainParts(parts)
    ensures Join(parts) == JoinWith(parts, '/')
    decreases |parts|
  {
    if |parts| > 1 {
      var init := parts[..|parts| - 1];
      var last := parts[|parts| - 1];
      assert PlainParts(init);
      JoinIsSlashJoin(init);
      JoinWithSnoc(init, last, '/');
      assert init + [last] == parts;
      var j := JoinWith(init, '/');
      assert j[|j| - 1] == init[|init| - 1][|init[|init| - 1]| - 1] by {
        JoinWithEndsWithLast(init, '/');
      }
    }
  }

  /** A `/`-join ends with its last part. */
  lemma {:induction false} JoinWithEndsWithLast(parts: seq<string>, sep: char)
    requires |parts| >= 1
    ensures |JoinWith(parts, sep)| >= |parts[|parts| - 1]|
    ensures JoinWith(parts, sep)[|JoinWith(parts, sep)| - |parts[|parts| - 1]|..] == parts[|parts| - 1]
    decreases |parts|
  {
    if |parts| > 1 {
      JoinWithEndsWithLast(parts[1..], sep);
      var tail := JoinWith(parts[1..], sep);
      var head := parts[0] + [sep];
      assert JoinWith(parts, sep) == head + tail;
      assert (head + tail)[|head + tail| - |parts[|parts| - 1]|..] == tail[|tail| - |parts[|parts| - 1]|..];
    }
  }

  /** An absolute last part discards every earlier part. */
  lemma AbsoluteLastResets(parts: seq<string>)
    requires |parts| >= 2
    requires IsAbsolute(parts[|parts| - 1])
    ensures Join(parts) == parts[|parts| - 1]
  {
  }

  /** `Join` spelled out for the argument counts the builders use. */
  lemma JoinOf2(a: string, b: string)
    ensures Join([a, b]) == Join2(a, b)
  {
    assert [a, b][..1] == [a];
  }

  lemma JoinOf3(a: string, b: string, c: string)
    ensures Join([a, b, c]) == Join2(Join2(a, b), c)
  {
    assert [a, b, c][..2] == [a, b];
    JoinOf2(a, b);
  }

  lemma JoinOf4(a: string, b: string, c: string, d: string)
    ensures Join([a, b, c, d]) == Join2(Join2(Join2(a, b), c), d)
  {
    assert [a, b, c, d][..3] == [a, b, c];
    JoinOf3(a, b, c);
  }

  lemma JoinOf5(a: string, b: string, c: string, d: string, e: string)
    ensures Join([a, b, c, d, e]) == Join2(Join2(Join2(Join2(a, b), c), d), e)
  {
    assert [a, b, c, d, e][..4] == [a, b, c, d];
    JoinOf4(a, b, c, d);
  }

  /** Appending a relative part to a non-empty path without a trailing `/`
      inserts exactly one separator, and the result ends like the part. */
  lemma Join2Plain(a: string, b: string)
    requires |a| > 0 && !EndsWithSep(a) && !IsAbsolute(b)
    ensures Join2(a, b) == a + "/" + b
    ensures |b| > 0 ==> (!EndsWithSep(Join2(a, b)) <==> !EndsWithSep(b))
    ensures |Join2(a, b)| > 0
  {
  }

  /** A join always ends with its last part. */
  lemma Join2Suffix(a: string, b: string)
    ensures |Join2(a, b)| >= |b| && Join2(a, b)[|Join2(a, b)| - |b|..] == b
  {
  }
}

=== FILE: requirements.dfy ===
/** Reading and writing pinned requirements in `util/update.py`. Lines are
    written as `name == version` and read back with
    `re.findall(r'(\S*)\s?==\s?(\S*)', text)`. The matcher below follows
    Python's backtracking engine on this one pattern: the greedy `\S*` is
    tried longest first, and each greedy `\s?` first tries to consume a
    whitespace character. */
module Requirements {
  import opened Results
  import opened Text
  import opened Update

  // Writing

  /** `f'{package} == {version}\n'` */
  function FormatLine(r: Requirement): (line: string) {
    r.name + " == " + r.version + "\n"
  }

  /** The text written back to `requirements.txt`. */
  function Render(reqs: seq<Requirement>): (text: string)
    decreases |reqs|
  {
    if |reqs| == 0 then "" else FormatLine(reqs[0]) + Render(reqs[1..])
  }

  // Reading

  /** Length of the longest prefix of `t` free of whitespace: what a greedy
      `\S*` consumes. */
  function NonSpaceRun(t: string): (n: nat)
    ensures n <= |t|
    ensures NoSpace(t[..n])
    ensures n < |t| ==> IsSpace(t[n])
    decreases |t|
  {
    if |t| == 0 || IsSpace(t[0]) then 0
    else
      var n := 1 + NonSpaceRun(t[1..]);
      assert forall i :: 1 <= i < n ==> t[..n][i] == t[1..][..n - 1][i - 1];
      n
  }

  /** `==` occurs in `t` at position `i`. */
  predicate EqEqAt(t: string, i: nat) {
    i + 2 <= |t| && t[i] == '=' && t[i + 1] == '='
  }

  /** A match at the start of the text: both groups and the length matched. */
  datatype LineMatch = LineMatch(name: string, version: string, length: nat)

  /** The part of the pattern after `==`, which ends at position `j`:
      `\s?(\S*)` never needs to backtrack. */
  function MatchTail(t: string, name: string, j: nat): (m: LineMatch)
    requires j <= |t|
    ensures j <= m.length <= |t|
    ensures m.name == name
    ensures m.length - |m.version| == (if j < |t| && IsSpace(t[j]) then j + 1 else j)
    ensures m.version == t[m.length - |m.version|..m.length]
    ensures NoSpace(m.version)
    ensures m.length == |t| || IsSpace(t[m.length])
  {
    var k := if j < |t| && IsSpace(t[j]) then j + 1 else j;
    var n := NonSpaceRun(t[k..]);
    assert t[k..][..n] == t[k..k + n];
    LineMatch(name, t[k..k + n], k + n)
  }

  /** `==` can follow a first group that ends at `p`, directly or after one
      whitespace character. */
  predicate SeparatorAt(t: string, p: nat) {
    (p < |t| && IsSpace(t[p]) && EqEqAt(t, p + 1)) || EqEqAt(t, p)
  }

  /** The match when the first group takes the first `i` characters, or,
      failing that, fewer of them. */
  function MatchFrom(t: string, i: nat): (m: Option<LineMatch>)
    requires i <= NonSpaceRun(t)
    ensures m.Some? ==> 2 <= m.value.length <= |t|
    ensures m.Some? ==> |m.value.name| <= i && m.value.name == t[..|m.value.name|]
    decreases i
  {
    if i < |t| && IsSpace(t[i]) && EqEqAt(t, i + 1) then Some(MatchTail(t, t[..i], i + 3))
    else if EqEqAt(t, i) then Some(MatchTail(t, t[..i], i + 2))
    else if i == 0 then None
    else MatchFrom(t, i - 1)
  }

  /** The pattern matches with a first group of at most `i` characters
      exactly when `==` can follow one of those prefixes. */
  lemma {:induction false} MatchFromNoneIff(t: string, i: nat)
    requires i <= NonSpaceRun(t)
    ensures MatchFrom(t, i).None? <==> forall p :: 0 <= p <= i ==> !SeparatorAt(t, p)
    decreases i
  {
    MatchFromStep(t, i);
    if !SeparatorAt(t, i) && i > 0 {
      MatchFromNoneIff(t, i - 1);
      if MatchFrom(t, i - 1).None? {
        forall p | 0 <= p <= i
          ensures !SeparatorAt(t, p)
        {
          if p < i {
            assert 0 <= p <= i - 1;
          }
        }
      }
    }
  }

  /** A match takes the longest first group that `==` can follow. */
  lemma {:induction false} MatchFromLongest(t: string, i: nat)
    requires i <= NonSpaceRun(t)
    requires MatchFrom(t, i).Some?
    ensures SeparatorAt(t, |MatchFrom(t, i).value.name|)
    ensures forall p :: |MatchFrom(t, i).value.name| < p <= i ==> !SeparatorAt(t, p)
    decreases i
  {
    MatchFromStep(t, i);
    if !SeparatorAt(t, i) {
      assert i > 0;
      var m := MatchFrom(t, i - 1);
      assert MatchFrom(t, i) == m;
      MatchFromLongest(t, i - 1);
      var n := |m.value.name|;
      forall p | n < p <= i
        ensures !SeparatorAt(t, p)
      {
        if p < i {
          assert n < p <= i - 1;
        }
      }
    }
  }

  /** One step of the backtracking: stop at a separator, else try a
      shorter first group. */
  lemma MatchFromStep(t: string, i: nat)
    requires i <= NonSpaceRun(t)
    ensures SeparatorAt(t, i) ==> MatchFrom(t, i).Some? && |MatchFrom(t, i).value.name| == i
    ensures !SeparatorAt(t, i) && i == 0 ==> MatchFrom(t, i).None?
    ensures !SeparatorAt(t, i) && i > 0 ==> MatchFrom(t, i) == MatchFrom(t, i - 1)
  {
  }

  /** `re.match(r'(\S*)\s?==\s?(\S*)', t)` */
  function Match(t: string): (m: Option<LineMatch>) {
    MatchFrom(t, NonSpaceRun(t))
  }

  /** `re.findall(r'(\S*)\s?==\s?(\S*)', t)`: scan for the leftmost match,
      record its groups, and go on after its end. */
  function FindAll(t: string): (found: seq<Requirement>)
    decreases |t|
  {
    if |t| == 0 then []
    else
      match Match(t)
      case Some(m) => [Requirement(m.name, m.version)] + FindAll(t[m.length..])
      case None => FindAll(t[1..])
  }

  // Round trips

  lemma {:induction false} NonSpaceRunPrefix(a: string, b: string)
    requires NoSpace(a)
    requires |b| > 0 && IsSpace(b[0])
    ensures NonSpaceRun(a + b) == |a|
    decreases |a|
  {
    if |a| == 0 {
      assert a + b == b;
    } else {
      assert (a + b)[1..] == a[1..] + b;
      NonSpaceRunPrefix(a[1..], b);
    }
  }

  /** After `==` at `j`, a space, a run without whitespace and then
      whitespace: the second group is that run. */
  lemma MatchTailSpaced(t: string, name: string, j: nat, v: string, s: string)
    requires j <= |t| && t[j..] == " " + v + s
    requires NoSpace(v) && |s| > 0 && IsSpace(s[0])
    ensures MatchTail(t, name, j) == LineMatch(name, v, j + 1 + |v|)
  {
    assert t[j] == ' ';
    assert t[j + 1..] == v + s;
    NonSpaceRunPrefix(v, s);
    assert t[j + 1..j + 1 + |v|] == (v + s)[..|v|];
  }

  /** The pieces of a written line followed by more text. */
  lemma FormattedLineShape(r: Requirement, rest: string)
    ensures var t := FormatLine(r) + rest; var n := |r.name|;
      && t == r.name + (" == " + r.version + "\n" + rest)
      && n + 4 <= |t|
      && t[n] == ' ' && t[n + 1] == '=' && t[n + 2] == '='
      && t[..n] == r.name
      && t[n + 3..] == " " + r.version + ("\n" + rest)
  {
  }

  /** The pattern matches a written line at its start and gives back the
      name and version, when neither holds whitespace. */
  lemma MatchFormattedLine(r: Requirement, rest: string)
    requires NoSpace(r.name) && NoSpace(r.version)
    ensures Match(FormatLine(r) + rest) == Some(LineMatch(r.name, r.version, |r.name| + 4 + |r.version|))
  {
    var t := FormatLine(r) + rest;
    var n := |r.name|;
    FormattedLineShape(r, rest);
    NonSpaceRunPrefix(r.name, " == " + r.version + "\n" + rest);
    assert IsSpace(t[n]) && EqEqAt(t, n + 1);
    assert MatchFrom(t, n) == Some(MatchTail(t, r.name, n + 3));
    MatchTailSpaced(t, r.name, n + 3, r.version, "\n" + rest);
  }

  /** A name the reader can find again after a newline: `==` at its start
      would let the pattern match across the line break. */
  predicate Writable(r: Requirement) {
    NoSpace(r.name) && NoSpace(r.version) && !(|r.name| >= 2 && r.name[..2] == "==")
  }

  /** At a newline nothing matches unless `==` follows it directly. */
  lemma NoMatchAfterNewline(x: string)
    requires !(|x| >= 2 && x[0] == '=' && x[1] == '=')
    ensures Match("\n" + x) == None
  {
    var t := "\n" + x;
    assert IsSpace(t[0]);
    assert NonSpaceRun(t) == 0;
    assert !EqEqAt(t, 1) by {
      if |t| >= 3 {
        assert t[1] == x[0] && t[2] == x[1];
      }
    }
  }

  /** Rendered text never starts with `==` when its first name does not. */
  lemma RenderStart(reqs: seq<Requirement>)
    requires |reqs| > 0 ==> Writable(reqs[0])
    ensures var x := Render(reqs); !(|x| >= 2 && x[0] == '=' && x[1] == '=')
  {
    if |reqs| > 0 {
      var r := reqs[0];
      var x := Render(reqs);
      assert x == r.name + (" == " + r.version + "\n" + Render(reqs[1..]));
      if |r.name| >= 2 {
        assert x[..2] == r.name[..2];
      } else if |r.name| == 1 {
        assert x[1] == ' ';
      } else {
        assert x[0] == ' ';
      }
    }
  }

  /** At the newline ending a written line nothing matches. */
  lemma NoMatchAtNewline(reqs: seq<Requirement>)
    requires |reqs| > 0 ==> Writable(reqs[0])
    ensures Match("\n" + Render(reqs)) == None
  {
    RenderStart(reqs);
    NoMatchAfterNewline(Render(reqs));
  }

  /** One written line reads back as exactly that requirement. */
  lemma LineRoundTrip(r: Requirement)
    requires NoSpace(r.name) && NoSpace(r.version)
    ensures FindAll(FormatLine(r)) == [r]
  {
    MatchFormattedLine(r, "");
    var t := FormatLine(r);
    assert t + "" == t;
    var m := |r.name| + 4 + |r.version|;
    assert t[m..] == "\n";
    assert Match("\n") == None;
    assert FindAll("\n"[1..]) == [];
  }

  /** The text after a written line's match is its newline and the rest. */
  lemma AfterFormattedLine(r: Requirement, rest: string)
    ensures var t := FormatLine(r) + rest;
      |r.name| + 4 + |r.version| <= |t| && t[|r.name| + 4 + |r.version|..] == "\n" + rest
  {
    var t := FormatLine(r) + rest;
    assert t == (r.name + " == " + r.version) + ("\n" + rest);
  }

  /** `findall` on text starting with a written line. */
  lemma FindAllLine(r: Requirement, rest: string)
    requires NoSpace(r.name) && NoSpace(r.version)
    ensures FindAll(FormatLine(r) + rest) == [r] + FindAll("\n" + rest)
  {
    var t := FormatLine(r) + rest;
    var m := LineMatch(r.name, r.version, |r.name| + 4 + |r.version|);
    MatchFormattedLine(r, rest);
    AfterFormattedLine(r, rest);
    var tail := t[m.length..];
    assert tail == "\n" + rest;
    FindAllMatched(t, m);
    assert Requirement(m.name, m.version) == r;
    assert FindAll(t) == [r] + FindAll(tail);
  }

  lemma FindAllMatched(t: string, m: LineMatch)
    requires Match(t) == Some(m)
    ensures m.length <= |t|
    ensures FindAll(t) == [Requirement(m.name, m.version)] + FindAll(t[m.length..])
  {
  }

  /** `findall` skips the newline before a written line. */
  lemma FindAllNewline(reqs: seq<Requirement>)
    requires |reqs| > 0 ==> Writable(reqs[0])
    ensures FindAll("\n" + Render(reqs)) == FindAll(Render(reqs))
  {
    NoMatchAtNewline(reqs);
    assert ("\n" + Render(reqs))[1..] == Render(reqs);
  }

  /** Reading back the written file gives the requirements that were
      written, in order. */
  lemma {:induction false} RenderRoundTrip(reqs: seq<Requirement>)
    requires forall i :: 0 <= i < |reqs| ==> Writable(reqs[i])
    ensures FindAll(Render(reqs)) == reqs
    decreases |reqs|
  {
    if |reqs| > 0 {
      FindAllLine(reqs[0], Render(reqs[1..]));
      FindAllNewline(reqs[1..]);
      RenderRoundTrip(reqs[1..]);
      assert reqs == [reqs[0]] + reqs[1..];
    }
  }

  /** Two requirements are written as their two lines. */
  lemma RenderTwo(r: Requirement, s: Requirement)
    ensures Render([r, s]) == FormatLine(r) + FormatLine(s)
  {
    assert [r, s][1..] == [s];
    assert Render([r, s]) == FormatLine(r) + Render([s]);
    assert [s][1..] == [];
    assert Render([s]) == FormatLine(s) + Render([]);
    assert FormatLine(s) + "" == FormatLine(s);
  }

  /** At the newline before a line whose name starts with `==`, the pattern
      matches with an empty first group. */
  lemma MatchBeforeEqEqName(s: Requirement)
    requires |s.name| >= 2 && s.name[..2] == "=="
    ensures var m := Match("\n" + FormatLine(s)); m.Some? && m.value.name == ""
  {
    var line := FormatLine(s);
    var u := "\n" + line;
    assert line[0] == s.name[0] && line[1] == s.name[1];
    assert IsSpace(u[0]) && EqEqAt(u, 1);
    assert NonSpaceRun(u) == 0;
  }

  /** Why `Writable` forbids a leading `==`: when a later name starts with
      `==`, the `\s?` before `==` takes the newline ending the line above,
      and the pattern matches there with an empty first group. The file
      then reads back with an empty name in place of that requirement. */
  lemma LaterEqEqNameMisread(r: Requirement, s: Requirement)
    requires NoSpace(r.name) && NoSpace(r.version)
    requires |s.name| >= 2 && s.name[..2] == "=="
    ensures var found := FindAll(Render([r, s]));
      |found| >= 2 && found[0] == r && found[1].name == ""
    ensures FindAll(Render([r, s])) != [r, s]
  {
    RenderTwo(r, s);
    FindAllLine(r, FormatLine(s));
    var u := "\n" + FormatLine(s);
    MatchBeforeEqEqName(s);
    FindAllMatched(u, Match(u).value);
  }

  // Lines written by hand without spaces

  /** Positions above `lo` where the pattern cannot continue are passed
      over by the backtracking. */
  lemma {:induction false} MatchFromSkips(t: string, lo: nat, i: nat)
    requires lo <= i <= NonSpaceRun(t)
    requires forall j :: lo < j <= i ==> !SeparatorAt(t, j)
    ensures MatchFrom(t, i) == MatchFrom(t, lo)
    decreases i
  {
    if i > lo {
      assert !SeparatorAt(t, i);
      MatchFromSkips(t, lo, i - 1);
    }
  }

  /** The characters of a compact line. */
  lemma CompactLineShape(name: string, version: string)
    requires NoSpace(name) && NoSpace(version) && |version| > 0
    requires '=' !in version
    ensures var t := name + "==" + version + "\n"; var n := |name|; var k := n + 2 + |version|;
      && |t| == k + 1
      && NonSpaceRun(t) == k
      && t[..n] == name
      && EqEqAt(t, n) && !IsSpace(t[n])
      && t[n + 2..] == version + "\n"
      && forall j :: n < j <= k ==> !SeparatorAt(t, j)
  {
    var line := name + "==" + version;
    var t := line + "\n";
    var n := |name|;
    var k := n + 2 + |version|;
    assert forall j :: 0 <= j < n ==> line[j] == name[j];
    assert forall j :: n + 2 <= j < k ==> line[j] == version[j - n - 2];
    assert line[n] == '=' && line[n + 1] == '=';
    assert NoSpace(line);
    NonSpaceRunPrefix(line, "\n");
    assert forall j :: 0 <= j < k ==> t[j] == line[j];
    assert t[n + 1 + 1] == version[0];
  }

  /** After `==` at `j`, a run without whitespace that ends in whitespace is
      the second group. */
  lemma MatchTailUnspaced(t: string, name: string, j: nat, v: string, s: string)
    requires j <= |t| && t[j..] == v + s
    requires |v| > 0 && NoSpace(v) && |s| > 0 && IsSpace(s[0])
    ensures MatchTail(t, name, j) == LineMatch(name, v, j + |v|)
  {
    assert t[j] == v[0];
    NonSpaceRunPrefix(v, s);
    assert t[j..j + |v|] == (v + s)[..|v|];
  }

  /** A compact line `name==version` reads as that requirement: the greedy
      first group backs off to the last `==`, which is the separator when
      the version holds no `=`. */
  lemma MatchCompactLine(name: string, version: string)
    requires NoSpace(name) && NoSpace(version) && |version| > 0
    requires '=' !in version
    ensures Match(name + "==" + version + "\n") == Some(LineMatch(name, version, |name| + 2 + |version|))
  {
    var t := name + "==" + version + "\n";
    var n := |name|;
    CompactLineShape(name, version);
    MatchAtLastEqEq(t, n, n + 2 + |version|);
    MatchTailUnspaced(t, name, n + 2, version, "\n");
  }

  /** When the run without whitespace holds `==` at `n` and nowhere after,
      the first group ends at `n`. */
  lemma MatchAtLastEqEq(t: string, n: nat, k: nat)
    requires n <= k == NonSpaceRun(t)
    requires EqEqAt(t, n) && !IsSpace(t[n])
    requires forall j :: n < j <= k ==> !SeparatorAt(t, j)
    ensures Match(t) == Some(MatchTail(t, t[..n], n + 2))
  {
    MatchFromSkips(t, n, k);
  }
}

=== FILE: results.dfy ===
/** Optional values and results carrying an error, used wherever the Python
    code returns None, raises an exception or looks up a missing key. */
module Results {

  datatype Option<+T> = None | Some(value: T)

  datatype Result<+T, +E> = Ok(value: T) | Err(error: E)
}

=== FILE: selection.dfy ===
/** Order-preserving selection from a sequence, as a Python list
    comprehension with an `if` clause or a loop that appends the elements
    passing a test computes it. */
module Selection {

  /** `[x for x in s if keep(x)]` */
  function Filter<T(==,!new)>(s: seq<T>, keep: T -> bool): (r: seq<T>)
    ensures |r| <= |s|
    ensures forall k :: 0 <= k < |r| ==> keep(r[k])
    ensures forall x :: x in r <==> x in s && keep(x)
    decreases |s|
  {
    if |s| == 0 then []
    else
      var init := s[..|s| - 1];
      var earlier := Filter(init, keep);
      assert s == init + [s[|s| - 1]];
      if keep(s[|s| - 1]) then earlier + [s[|s| - 1]] else earlier
  }

  /** One more element extends the selection by that element exactly when it
      passes the test: the step of the loop that appends to the result. */
  lemma FilterSnoc<T(!new)>(s: seq<T>, x: T, keep: T -> bool)
    ensures Filter(s + [x], keep) == if keep(x) then Filter(s, keep) + [x] else Filter(s, keep)
  {
    assert (s + [x])[..|s|] == s;
  }

  /** The positions of the elements of `s` that pass `keep`, in increasing order. */
  function KeptIndices<T>(s: seq<T>, keep: T -> bool): (idx: seq<nat>)
    ensures forall k :: 0 <= k < |idx| ==> idx[k] < |s|
    ensures forall k, l :: 0 <= k < l < |idx| ==> idx[k] < idx[l]
    ensures forall i :: 0 <= i < |s| ==> (i in idx <==> keep(s[i]))
    decreases |s|
  {
    if |s| == 0 then []
    else
      var earlier := KeptIndices(s[..|s| - 1], keep);
      assert forall i :: 0 <= i < |s| - 1 ==> s[..|s| - 1][i] == s[i];
      if keep(s[|s| - 1]) then earlier + [|s| - 1] else earlier
  }

  /** The selection is exactly the elements at the kept positions, in order:
      nothing is reordered, dropped or repeated beyond what `keep` decides. */
  lemma {:induction false} FilterSelects<T(!new)>(s: seq<T>, keep: T -> bool)
    ensures |Filter(s, keep)| == |KeptIndices(s, keep)|
    ensures forall k :: 0 <= k < |Filter(s, keep)| ==> Filter(s, keep)[k] == s[KeptIndices(s, keep)[k]]
    decreases |s|
  {
    if |s| > 0 {
      var init := s[..|s| - 1];
      FilterSelects(init, keep);
      var idx := KeptIndices(init, keep);
      forall k | 0 <= k < |idx|
        ensures s[idx[k]] == init[idx[k]]
      {
      }
    }
  }
}

=== FILE: text.dfy ===
/** String operations with the meaning Python's `str` methods give them.
    Case mapping and digits are those of ASCII; whitespace is the full set
    `str.isspace()` (and the regular-expression class `\s`) accepts. */
module Text {

  predicate IsDigit(c: char) {
    '0' <= c <= '9'
  }

  /** Python's `str.isspace()` on one character, which is also what `\s`
      matches in a `str` pattern. */
  predicate IsSpace(c: char) {
    || c == ' '
    || ('\t' <= c <= '\r')
    || ('\U{1C}' <= c <= '\U{1F}')
    || c == '\U{85}' || c == '\U{A0}' || c == '\U{1680}'
    || ('\U{2000}' <= c <= '\U{200A}')
    || c == '\U{2028}' || c == '\U{2029}' || c == '\U{202F}' || c == '\U{205F}'
    || c == '\U{3000}'
  }

  predicate NoSpace(s: string) {
    forall i :: 0 <= i < |s| ==> !IsSpace(s[i])
  }

  predicate AllDigits(s: string) {
    forall i :: 0 <= i < |s| ==> IsDigit(s[i])
  }

  lemma AllDigitsConcat(a: string, b: string)
    ensures AllDigits(a + b) <==> AllDigits(a) && AllDigits(b)
  {
    if AllDigits(a + b) {
      assert forall j :: 0 <= j < |a| ==> (a + b)[j] == a[j];
      assert forall j :: 0 <= j < |b| ==> (a + b)[|a| + j] == b[j];
    }
    if AllDigits(a) && AllDigits(b) {
      forall j | 0 <= j < |a + b|
        ensures IsDigit((a + b)[j])
      {
        if j >= |a| {
          assert (a + b)[j] == b[j - |a|];
        }
      }
    }
  }

  function UpperChar(c: char): (u: char) {
    if 'a' <= c <= 'z' then (c as int - 32) as char else c
  }

  function LowerChar(c: char): (l: char) {
    if 'A' <= c <= 'Z' then (c as int + 32) as char else c
  }

  /** `s.upper()` */
  function Upper(s: string): (r: string)
    ensures |r| == |s|
  {
    seq(|s|, i requires 0 <= i < |s| => UpperChar(s[i]))
  }

  /** `s.lower()` */
  function Lower(s: string): (r: string)
    ensures |r| == |s|
  {
    seq(|s|, i requires 0 <= i < |s| => LowerChar(s[i]))
  }

  /** Upper-casing twice is upper-casing once. */
  lemma UpperIdempotent(s: string)
    ensures Upper(Upper(s)) == Upper(s)
  {
  }

  /** Upper-casing never creates or removes a `/` or a `.`. */
  lemma UpperKeepsPunctuation(s: string, i: int)
    requires 0 <= i < |s|
    ensures Upper(s)[i] == '/' <==> s[i] == '/'
    ensures Upper(s)[i] == '.' <==> s[i] == '.'
  {
  }

  /** Python's `t in s` for strings: `t` occurs in `s` at some offset. */
  predicate Contains(s: string, t: string)
    decreases |s|
  {
    if |t| > |s| then false
    else if s[..|t|] == t then true
    else if |s| == 0 then false
    else Contains(s[1..], t)
  }

  /** `t` occurs in `s` starting at offset `i`. */
  predicate OccursAt(s: string, t: string, i: int) {
    0 <= i <= |s| - |t| && s[i..i + |t|] == t
  }

  /** `Contains` agrees with the definition by an explicit offset. */
  lemma {:induction false} ContainsIffOccurs(s: string, t: string)
    ensures Contains(s, t) <==> exists i :: OccursAt(s, t, i)
    decreases |s|
  {
    if |t| > |s| {
    } else if s[..|t|] == t {
      assert OccursAt(s, t, 0);
    } else if |s| == 0 {
    } else {
      ContainsIffOccurs(s[1..], t);
      if Contains(s, t) {
        var i :| OccursAt(s[1..], t, i);
        assert s[1..][i..i + |t|] == s[i + 1..i + 1 + |t|];
        assert OccursAt(s, t, i + 1);
      } else {
        forall i | OccursAt(s, t, i)
          ensures false
        {
          if i > 0 {
            assert s[1..][i - 1..i - 1 + |t|] == s[i..i + |t|];
            assert OccursAt(s[1..], t, i - 1);
          }
        }
      }
    }
  }

  /** An occurrence inside either half of a concatenation is an occurrence in the whole. */
  lemma ContainsInConcat(a: string, b: string, t: string)
    requires Contains(a, t) || Contains(b, t)
    ensures Contains(a + b, t)
  {
    ContainsIffOccurs(a, t);
    ContainsIffOccurs(b, t);
    ContainsIffOccurs(a + b, t);
    if Contains(a, t) {
      var i :| OccursAt(a, t, i);
      assert (a + b)[i..i + |t|] == a[i..i + |t|];
      assert OccursAt(a + b, t, i);
    } else {
      var i :| OccursAt(b, t, i);
      assert (a + b)[|a| + i..|a| + i + |t|] == b[i..i + |t|];
      assert OccursAt(a + b, t, |a| + i);
    }
  }

  /** Python's `s.split(sep)` for a one-character separator: the pieces
      between separators, empty pieces included. */
  function Split(s: string, sep: char): (parts: seq<string>)
    ensures |parts| >= 1
    decreases |s|
  {
    if |s| == 0 then [""]
    else
      var rest := Split(s[1..], sep);
      if s[0] == sep then [""] + rest
      else [[s[0]] + rest[0]] + rest[1..]
  }

  /** `sep.join(parts)` for a one-character separator. */
  function JoinWith(parts: seq<string>, sep: char): (s: string)
    requires |parts| >= 1
    decreases |parts|
  {
    if |parts| == 1 then parts[0]
    else parts[0] + [sep] + JoinWith(parts[1..], sep)
  }

  /** Joining is associative with appending one more piece. */
  lemma {:induction false} JoinWithSnoc(parts: seq<string>, last: string, sep: char)
    requires |parts| >= 1
    ensures JoinWith(parts + [last], sep) == JoinWith(parts, sep) + [sep] + last
    decreases |parts|
  {
    if |parts| == 1 {
      assert (parts + [last])[1..] == [last];
    } else {
      assert (parts + [last])[1..] == parts[1..] + [last];
      JoinWithSnoc(parts[1..], last, sep);
    }
  }

  /** Splitting a piece free of separators followed by more text extends the first piece. */
  lemma {:induction false} SplitPrefix(p: string, t: string, sep: char)
    requires sep !in p
    ensures Split(p + t, sep) == [p + Split(t, sep)[0]] + Split(t, sep)[1..]
    decreases |p|
  {
    if |p| == 0 {
      assert p + t == t;
      assert p + Split(t, sep)[0] == Split(t, sep)[0];
      assert Split(t, sep) == [Split(t, sep)[0]] + Split(t, sep)[1..];
    } else {
      assert (p + t)[1..] == p[1..] + t;
      SplitPrefix(p[1..], t, sep);
      assert [p[0]] + (p[1..] + Split(t, sep)[0]) == p + Split(t, sep)[0];
    }
  }

  /** Splitting at a separator that the first piece lacks peels that piece off. */
  lemma SplitAtFirst(p: string, t: string, sep: char)
    requires sep !in p
    ensures Split(p + [sep] + t, sep) == [p] + Split(t, sep)
  {
    assert p + [sep] + t == p + ([sep] + t);
    SplitPrefix(p, [sep] + t, sep);
    assert ([sep] + t)[1..] == t;
    assert p + "" == p;
  }

  /** A string without the separator splits into itself. */
  lemma SplitWithoutSep(s: string, sep: char)
    requires sep !in s
    ensures Split(s, sep) == [s]
  {
    SplitPrefix(s, "", sep);
    assert s + "" == s;
  }

  /** Splitting undoes joining when no piece holds the separator. */
  lemma {:induction false} SplitJoinWith(parts: seq<string>, sep: char)
    requires |parts| >= 1
    requires forall i :: 0 <= i < |parts| ==> sep !in parts[i]
    ensures Split(JoinWith(parts, sep), sep) == parts
    decreases |parts|
  {
    if |parts| == 1 {
      SplitPrefix(parts[0], "", sep);
      assert parts[0] + "" == parts[0];
    } else {
      var tail := JoinWith(parts[1..], sep);
      SplitJoinWith(parts[1..], sep);
      assert parts[0] + [sep] + tail == parts[0] + ([sep] + tail);
      SplitPrefix(parts[0], [sep] + tail, sep);
      assert ([sep] + tail)[1..] == tail;
      assert Split([sep] + tail, sep) == [""] + parts[1..];
      assert parts[0] + "" == parts[0];
      assert parts == [parts[0]] + parts[1..];
    }
  }

  /** Joining undoes splitting, and no piece of a split holds the separator. */
  lemma {:induction false} JoinWithSplit(s: string, sep: char)
    ensures JoinWith(Split(s, sep), sep) == s
    ensures forall i :: 0 <= i < |Split(s, sep)| ==> sep !in Split(s, sep)[i]
    decreases |s|
  {
    if |s| == 0 {
    } else {
      var rest := Split(s[1..], sep);
      JoinWithSplit(s[1..], sep);
      if s[0] == sep {
        assert ([""] + rest)[1..] == rest;
        assert s == [s[0]] + s[1..];
      } else if |rest| == 1 {
        assert s == [s[0]] + s[1..];
      } else {
        var parts := [[s[0]] + rest[0]] + rest[1..];
        assert parts[1..] == rest[1..];
        assert s == [s[0]] + s[1..];
        forall i | 0 <= i < |parts|
          ensures sep !in parts[i]
        {
          if i > 0 {
            assert parts[i] == rest[i];
          }
        }
      }
    }
  }

  /** The value of a string of decimal digits, as Python's `int()` reads it. */
  function DecimalValue(d: string): (v: nat)
    requires AllDigits(d)
    decreases |d|
  {
    if |d| == 0 then 0
    else 10 * DecimalValue(d[..|d| - 1]) + (d[|d| - 1] as int - '0' as int)
  }
}

=== FILE: update.dfy ===
/** The upgrade decision and the bookkeeping of `util/update.py`: for every
    pinned package the newest release is looked up, and the pin moves to it
    unless the package is on the skip list. */
module Update {
  import opened Results
  import opened Versions

  /** Packages whose pins are only ever changed by hand. */
  const PackagesToSkip: seq<string> := ["scikit-learn", "auto-sklearn", "imbalanced-learn", "pynisher"]

  /** One pinned line of `requirements.txt`: `name == version`. */
  datatype Requirement = Requirement(name: string, version: string)

  /** `latest != version and package not in packages_to_skip` */
  predicate Upgrades(name: string, version: string, latest: string) {
    latest != version && name !in PackagesToSkip
  }

  /** The version recorded for a package once its newest release is known. */
  function NextVersion(name: string, version: string, latest: string): (v: string)
    ensures name in PackagesToSkip ==> v == version
    ensures name !in PackagesToSkip ==> v == latest
    ensures v != version <==> Upgrades(name, version, latest)
  {
    if Upgrades(name, version, latest) then latest else version
  }

  /** The script stops at the first package whose newest release cannot be
      determined. */
  datatype UpdateError = UpdateError(package: string, cause: ReleaseError)

  /** The entry `new_packages` receives for one requirement, given the
      outcome of looking up its newest release. */
  function Bump(req: Requirement, newest: Result<string, ReleaseError>): (r: Result<Requirement, UpdateError>)
    ensures r.Ok? <==> newest.Ok?
    ensures r.Ok? ==> r.value.name == req.name
    ensures r.Ok? && req.name in PackagesToSkip ==> r.value.version == req.version
    ensures r.Ok? && req.name !in PackagesToSkip ==> r.value.version == newest.value
    ensures r.Err? ==> r.error == UpdateError(req.name, newest.error)
  {
    match newest
    case Err(e) => Err(UpdateError(req.name, e))
    case Ok(latest) => Ok(Requirement(req.name, NextVersion(req.name, req.version, latest)))
  }

  /** `reqs[i]` is the first requirement whose update fails. */
  predicate FirstFailure(reqs: seq<Requirement>, newest: seq<Result<string, ReleaseError>>, i: int)
    requires |newest| == |reqs|
  {
    && 0 <= i < |reqs|
    && Bump(reqs[i], newest[i]).Err?
    && forall j :: 0 <= j < i ==> Bump(reqs[j], newest[j]).Ok?
  }

  /** The loop over the pinned `reqs`, where `newest[i]` is the outcome of
      looking up the newest release of `reqs[i]`: `new_packages` gets one
      entry per requirement, in order, and the first failure stops the
      script. */
  function UpdateAll(reqs: seq<Requirement>, newest: seq<Result<string, ReleaseError>>): (r: Result<seq<Requirement>, UpdateError>)
    requires |newest| == |reqs|
    ensures r.Ok? <==> forall i :: 0 <= i < |reqs| ==> newest[i].Ok?
    ensures r.Ok? ==> |r.value| == |reqs| && forall i :: 0 <= i < |reqs| ==> Bump(reqs[i], newest[i]) == Ok(r.value[i])
    ensures r.Err? ==> exists i :: FirstFailure(reqs, newest, i) && Bump(reqs[i], newest[i]) == Err(r.error)
    decreases |reqs|
  {
    if |reqs| == 0 then Ok([])
    else
      match Bump(reqs[0], newest[0])
      case Err(e) =>
        assert FirstFailure(reqs, newest, 0);
        Err(e)
      case Ok(head) =>
        match UpdateAll(reqs[1..], newest[1..])
        case Err(e) =>
          var i :| FirstFailure(reqs[1..], newest[1..], i) && Bump(reqs[1..][i], newest[1..][i]) == Err(e);
          assert forall j :: 1 <= j < |reqs| ==> reqs[1..][j - 1] == reqs[j] && newest[1..][j - 1] == newest[j];
          assert FirstFailure(reqs, newest, i + 1);
          Err(e)
        case Ok(rest) =>
          assert forall j :: 1 <= j < |reqs| ==> reqs[1..][j - 1] == reqs[j] && newest[1..][j - 1] == newest[j];
          Ok([head] + rest)
  }

  /** The whole script between reading and writing `requirements.txt`:
      `releases[i]` lists the release keys PyPI reports for `reqs[i]`. */
  function UpdateFromReleases(reqs: seq<Requirement>, releases: seq<seq<string>>): (r: Result<seq<Requirement>, UpdateError>)
    requires |releases| == |reqs|
    ensures r.Ok? <==> forall i :: 0 <= i < |reqs| ==> Latest(releases[i]).Ok?
    ensures r.Err? ==> exists i :: && 0 <= i < |reqs|
                                   && (forall j :: 0 <= j < i ==> Latest(releases[j]).Ok?)
                                   && Latest(releases[i]).Err?
                                   && r.error == UpdateError(reqs[i].name, Latest(releases[i]).error)
    ensures r.Ok? ==> |r.value| == |reqs| && forall i :: 0 <= i < |reqs| ==>
              && Latest(releases[i]).Ok?
              && r.value[i] == Requirement(reqs[i].name, NextVersion(reqs[i].name, reqs[i].version, Latest(releases[i]).value))
  {
    var newest := seq(|releases|, i requires 0 <= i < |releases| => Latest(releases[i]));
    var r := UpdateAll(reqs, newest);
    if r.Ok? then
      BumpFields(reqs, releases, newest, r.value);
      r
    else
      r
  }

  lemma BumpFields(reqs: seq<Requirement>, releases: seq<seq<string>>,
                   newest: seq<Result<string, ReleaseError>>, out: seq<Requirement>)
    requires |releases| == |reqs| == |newest| == |out|
    requires forall i :: 0 <= i < |releases| ==> newest[i] == Latest(releases[i])
    requires forall i :: 0 <= i < |reqs| ==> Bump(reqs[i], newest[i]) == Ok(out[i])
    ensures forall i :: 0 <= i < |reqs| ==>
              && Latest(releases[i]).Ok?
              && out[i] == Requirement(reqs[i].name, NextVersion(reqs[i].name, reqs[i].version, Latest(releases[i]).value))
  {
    forall i | 0 <= i < |reqs|
      ensures Latest(releases[i]).Ok?
      ensures out[i] == Requirement(reqs[i].name, NextVersion(reqs[i].name, reqs[i].version, Latest(releases[i]).value))
    {
      assert Bump(reqs[i], newest[i]) == Ok(out[i]);
      assert newest[i].Ok?;
    }
  }

  /** Running the update a second time against the same newest releases
      changes nothing: every pin already is the newest release or is
      skipped. */
  lemma UpdateAllIdempotent(reqs: seq<Requirement>, newest: seq<Result<string, ReleaseError>>)
    requires |newest| == |reqs|
    requires UpdateAll(reqs, newest).Ok?
    ensures UpdateAll(UpdateAll(reqs, newest).value, newest) == UpdateAll(reqs, newest)
  {
    var once := UpdateAll(reqs, newest).value;
    var twice := UpdateAll(once, newest);
    assert twice.Ok?;
    forall i | 0 <= i < |reqs|
      ensures twice.value[i] == once[i]
    {
    }
  }
}

=== FILE: version_examples.dfy ===
/** Worked release keys: the numeric ordering that makes "1.10" newer than
    "1.9", and the keys the filter lets through or turns away. */
module VersionExamples {
  import opened Results
  import opened Text
  import opened Versions
  import opened Selection

  lemma SplitOneTen()
    ensures Split("1.10", '.') == ["1", "10"]
  {
    assert "1.10" == "1" + ['.'] + "10";
    SplitAtFirst("1", "10", '.');
    SplitWithoutSep("10", '.');
  }

  lemma SplitOneNine()
    ensures Split("1.9", '.') == ["1", "9"]
  {
    assert "1.9" == "1" + ['.'] + "9";
    SplitAtFirst("1", "9", '.');
    SplitWithoutSep("9", '.');
  }

  lemma ComponentsOneTen()
    ensures IsReleaseKey("1.10") && Components("1.10") == Some([1, 10])
  {
    assert RemoveDots("1.10") == "110";
    SplitOneTen();
    assert DecimalValue("10") == 10 by { assert "10"[..1] == "1"; }
    var c := Components("1.10");
    assert c.Some? && |c.value| == 2;
    assert c.value[0] == 1 && c.value[1] == 10;
    assert c.value == [1, 10];
  }

  lemma ComponentsOneNine()
    ensures IsReleaseKey("1.9") && Components("1.9") == Some([1, 9])
  {
    assert RemoveDots("1.9") == "19";
    SplitOneNine();
    var c := Components("1.9");
    assert c.Some? && |c.value| == 2;
    assert c.value[0] == 1 && c.value[1] == 9;
    assert c.value == [1, 9];
  }

  /** "1.10" ranks above "1.9", although it sorts below it as text. */
  lemma OneTenAfterOneNine()
    ensures IsReleaseKey("1.9") && IsReleaseKey("1.10")
    ensures LexLe(Components("1.9").value, Components("1.10").value)
    ensures !LexLe(Components("1.10").value, Components("1.9").value)
  {
    ComponentsOneTen();
    ComponentsOneNine();
    assert [1, 9][1..] == [9] && [1, 10][1..] == [10];
  }

  /** A release candidate is not a release. */
  lemma ReleaseCandidateFiltered()
    ensures !IsReleaseKey("2.0rc1")
  {
    ReleaseKeyIff("2.0rc1");
    assert "2.0rc1"[3] == 'r';
  }

  /** "1..2" passes the filter but its components do not convert. */
  lemma DoubleDotMalformed()
    ensures IsReleaseKey("1..2") && Components("1..2").None?
  {
    assert RemoveDots("1..2") == "12";
    ComponentsDefinedIff("1..2");
    ContainsIffOccurs("1..2", "..");
    assert OccursAt("1..2", "..", 1);
  }

  /** A three-element selection that keeps the first two elements. */
  lemma FilterFirstTwo<T(!new)>(a: T, b: T, c: T, keep: T -> bool)
    requires keep(a) && keep(b) && !keep(c)
    ensures Filter([a, b, c], keep) == [a, b]
  {
    FilterSnoc([], a, keep);
    assert [] + [a] == [a];
    FilterSnoc([a], b, keep);
    assert [a] + [b] == [a, b];
    FilterSnoc([a, b], c, keep);
    assert [a, b] + [c] == [a, b, c];
  }

  /** The releases of a listing that also names a release candidate. */
  lemma ReleasesOfListing()
    ensures Releases(["1.9", "1.10", "2.0rc1"]) == ["1.9", "1.10"]
  {
    assert IsReleaseKey("1.9") by { assert RemoveDots("1.9") == "19"; }
    assert IsReleaseKey("1.10") by { assert RemoveDots("1.10") == "110"; }
    ReleaseCandidateFiltered();
    FilterFirstTwo("1.9", "1.10", "2.0rc1", IsReleaseKey);
  }

  /** The newest release is chosen by number, not by text. */
  lemma LatestOfListing()
    ensures Latest(["1.9", "1.10", "2.0rc1"]) == Ok("1.10")
  {
    ReleasesOfListing();
    OneTenAfterOneNine();
    LatestOfTwo(["1.9", "1.10", "2.0rc1"], "1.9", "1.10");
  }

  /** Of two releases, the one whose components rank strictly higher is the newest. */
  lemma LatestOfTwo(keys: seq<string>, a: string, b: string)
    requires Releases(keys) == [a, b]
    requires IsReleaseKey(a) && IsReleaseKey(b)
    requires Components(a).Some? && Components(b).Some?
    requires !LexLe(Components(b).value, Components(a).value)
    ensures Latest(keys) == Ok(b)
  {
    var r := Latest(keys);
    assert forall k :: k in [a, b] ==> k == a || k == b;
    assert b in Releases(keys);
  }
}

=== FILE: versions.dfy ===
/** Choosing the newest release of a package in `util/update.py`: release
    keys are filtered to the purely numeric-dotted ones, ordered by their
    list of integer components, and the last one of a stable ascending sort
    is taken. */
module Versions {
  import opened Results
  import opened Text
  import opened Selection

  // Release filter

  /** `key.replace('.', '')` */
  function RemoveDots(k: string): (d: string)
    decreases |k|
  {
    if |k| == 0 then ""
    else (if k[0] == '.' then "" else [k[0]]) + RemoveDots(k[1..])
  }

  /** `key.replace('.', '').isdigit()`: the filter a release key must pass. */
  predicate IsReleaseKey(k: string) {
    var d := RemoveDots(k);
    |d| > 0 && AllDigits(d)
  }

  lemma {:induction false} RemoveDotsDigits(k: string)
    ensures AllDigits(RemoveDots(k)) <==> forall i :: 0 <= i < |k| ==> k[i] == '.' || IsDigit(k[i])
    ensures |RemoveDots(k)| > 0 <==> exists i :: 0 <= i < |k| && k[i] != '.'
    decreases |k|
  {
    if |k| > 0 {
      RemoveDotsDigits(k[1..]);
      var head := if k[0] == '.' then "" else [k[0]];
      var tail := RemoveDots(k[1..]);
      assert RemoveDots(k) == head + tail;
      AllDigitsConcat(head, tail);
      if AllDigits(RemoveDots(k)) {
        forall i | 0 <= i < |k|
          ensures k[i] == '.' || IsDigit(k[i])
        {
          if i > 0 {
            assert k[1..][i - 1] == k[i];
          } else if k[0] != '.' {
            assert RemoveDots(k)[0] == k[0];
          }
        }
      }
      if exists i :: 0 <= i < |k| && k[i] != '.' {
        var i :| 0 <= i < |k| && k[i] != '.';
        if i > 0 && k[0] == '.' {
          assert k[1..][i - 1] != '.';
        }
      }
      if |RemoveDots(k[1..])| > 0 {
        var i :| 0 <= i < |k[1..]| && k[1..][i] != '.';
        assert k[i + 1] != '.';
      }
    }
  }

  /** A key passes the filter exactly when it consists of digits and dots
      only and holds at least one digit. */
  lemma ReleaseKeyIff(k: string)
    ensures IsReleaseKey(k) <==> (forall i :: 0 <= i < |k| ==> k[i] == '.' || IsDigit(k[i]))
                                 && (exists i :: 0 <= i < |k| && IsDigit(k[i]))
  {
    RemoveDotsDigits(k);
  }

  /** `[key for key in keys if key.replace('.', '').isdigit()]` */
  function Releases(keys: seq<string>): (rs: seq<string>)
    ensures |rs| <= |keys|
    ensures forall k :: k in rs <==> k in keys && IsReleaseKey(k)
  {
    Filter(keys, IsReleaseKey)
  }

  /** The releases keep the order and the repetitions of the listing: they
      are the keys at exactly the positions that pass the filter. */
  lemma ReleasesInListingOrder(keys: seq<string>)
    ensures var idx := KeptIndices(keys, IsReleaseKey);
      && |Releases(keys)| == |idx|
      && (forall k, l :: 0 <= k < l < |idx| ==> idx[k] < idx[l])
      && (forall i :: 0 <= i < |keys| ==> (i in idx <==> IsReleaseKey(keys[i])))
      && forall k :: 0 <= k < |idx| ==> idx[k] < |keys| && Releases(keys)[k] == keys[idx[k]]
  {
    FilterSelects(keys, IsReleaseKey);
  }

  // Integer components

  /** `int(number)` on a string of digits: fails on the empty string. */
  function ParseComponent(p: string): (r: Option<nat>)
    requires AllDigits(p)
    ensures r.None? <==> |p| == 0
  {
    if |p| == 0 then None else Some(DecimalValue(p))
  }

  /** `[int(number) for number in parts]`: fails when some part is empty. */
  function ParseComponents(parts: seq<string>): (r: Option<seq<nat>>)
    requires forall i :: 0 <= i < |parts| ==> AllDigits(parts[i])
    ensures r.Some? <==> forall i :: 0 <= i < |parts| ==> |parts[i]| > 0
    ensures r.Some? ==> |r.value| == |parts|
                        && forall i :: 0 <= i < |parts| ==> r.value[i] == DecimalValue(parts[i])
    decreases |parts|
  {
    if |parts| == 0 then Some([])
    else
      match ParseComponent(parts[0])
      case None => None
      case Some(n) =>
        match ParseComponents(parts[1..])
        case None => None
        case Some(ns) => Some([n] + ns)
  }

  /** The pieces of a release key split at `.` are strings of digits. */
  lemma {:induction false} SplitReleaseKeyDigits(k: string)
    requires forall i :: 0 <= i < |k| ==> k[i] == '.' || IsDigit(k[i])
    ensures forall j :: 0 <= j < |Split(k, '.')| ==> AllDigits(Split(k, '.')[j])
    decreases |k|
  {
    if |k| > 0 {
      SplitReleaseKeyDigits(k[1..]);
      var rest := Split(k[1..], '.');
      if k[0] != '.' {
        assert forall i :: 0 <= i < |rest[0]| ==> IsDigit(rest[0][i]);
        assert AllDigits([k[0]] + rest[0]);
        var parts := Split(k, '.');
        assert forall j :: 1 <= j < |parts| ==> parts[j] == rest[j];
      } else {
        var parts := Split(k, '.');
        assert forall j :: 1 <= j < |parts| ==> parts[j] == rest[j - 1];
      }
    }
  }

  predicate HasEmptyPart(parts: seq<string>) {
    exists j :: 0 <= j < |parts| && |parts[j]| == 0
  }

  /** `[int(number) for number in release.split('.')]` on a key that passed
      the filter; `None` stands for the `ValueError` an empty piece raises. */
  function Components(k: string): (r: Option<seq<nat>>)
    requires IsReleaseKey(k)
    ensures r.Some? <==> !HasEmptyPart(Split(k, '.'))
    ensures forall i :: 0 <= i < |Split(k, '.')| ==> AllDigits(Split(k, '.')[i])
    ensures r.Some? ==> |r.value| == |Split(k, '.')|
                        && forall i :: 0 <= i < |r.value| ==> r.value[i] == DecimalValue(Split(k, '.')[i])
  {
    ReleaseKeyIff(k);
    SplitReleaseKeyDigits(k);
    var parts := Split(k, '.');
    ParseComponents(parts)
  }

  /** Python's `c + t` contains `..` when `t` does, or `c` is a dot and `t`
      starts with one. */
  lemma ContainsDotsCons(c: char, t: string)
    ensures Contains([c] + t, "..") <==> (c == '.' && |t| > 0 && t[0] == '.') || Contains(t, "..")
  {
    var s := [c] + t;
    assert s[1..] == t;
    if |t| > 0 {
      assert s[..2] == [c, t[0]];
    }
  }

  /** Splitting at `.` gives an empty piece exactly when the key is empty,
      starts or ends with a dot, or holds two dots in a row. */
  lemma {:induction false} EmptyPartIff(k: string)
    ensures HasEmptyPart(Split(k, '.')) <==>
              |k| == 0 || k[0] == '.' || k[|k| - 1] == '.' || Contains(k, "..")
    decreases |k|, 1
  {
    if |k| == 0 {
      assert |Split(k, '.')[0]| == 0;
    } else {
      var t := k[1..];
      var parts := Split(k, '.');
      var rest := Split(t, '.');
      assert k == [k[0]] + t;
      ContainsDotsCons(k[0], t);
      if k[0] == '.' {
        assert |parts[0]| == 0;
      } else {
        EmptyTailPartIff(t);
        assert forall j :: 1 <= j < |parts| ==> parts[j] == rest[j];
        if HasEmptyPart(parts) {
          var j :| 0 <= j < |parts| && |parts[j]| == 0;
          assert j >= 1;
          assert |rest[1..][j - 1]| == 0;
        }
        if HasEmptyPart(rest[1..]) {
          var j :| 0 <= j < |rest[1..]| && |rest[1..][j]| == 0;
          assert |parts[j + 1]| == 0;
        }
      }
    }
  }

  /** Every piece after the first is empty for some piece exactly when the
      string ends with a dot or holds two dots in a row. */
  lemma {:induction false} EmptyTailPartIff(t: string)
    ensures HasEmptyPart(Split(t, '.')[1..]) <==>
              (|t| > 0 && t[|t| - 1] == '.') || Contains(t, "..")
    decreases |t|, 0
  {
    if |t| > 0 {
      var u := t[1..];
      var parts := Split(t, '.');
      var rest := Split(u, '.');
      assert t == [t[0]] + u;
      ContainsDotsCons(t[0], u);
      if t[0] == '.' {
        EmptyPartIff(u);
        assert parts[1..] == rest;
      } else {
        EmptyTailPartIff(u);
        assert parts[1..] == rest[1..];
      }
    }
  }

  /** A key that passed the filter converts to integers exactly when it
      neither starts nor ends with a dot and has no two dots in a row
      ("1..2" and "1." pass the filter but raise `ValueError`). */
  lemma ComponentsDefinedIff(k: string)
    requires IsReleaseKey(k)
    ensures Components(k).Some? <==> k[0] != '.' && k[|k| - 1] != '.' && !Contains(k, "..")
  {
    EmptyPartIff(k);
  }

  // Ordering

  /** Python's `a <= b` on two lists of integers: lexicographic, with a
      proper prefix ranking below the longer list. */
  predicate LexLe(a: seq<nat>, b: seq<nat>)
    decreases |a|
  {
    if |a| == 0 then true
    else if |b| == 0 then false
    else if a[0] != b[0] then a[0] < b[0]
    else LexLe(a[1..], b[1..])
  }

  /** `a` and `b` agree before position `i`, where `a` is smaller. */
  predicate FirstDifferenceBelow(a: seq<nat>, b: seq<nat>, i: int) {
    0 <= i < |a| && i < |b| && a[..i] == b[..i] && a[i] < b[i]
  }

  /** The list order by its textbook definition: `a` is a prefix of `b`, or
      the first difference is smaller in `a`. */
  lemma {:induction false} LexLeIff(a: seq<nat>, b: seq<nat>)
    ensures LexLe(a, b) <==> (|a| <= |b| && a == b[..|a|]) || exists i :: FirstDifferenceBelow(a, b, i)
    decreases |a|
  {
    if |a| == 0 {
    } else if |b| == 0 {
    } else if a[0] != b[0] {
      if a[0] < b[0] {
        assert FirstDifferenceBelow(a, b, 0);
      } else {
        forall i | FirstDifferenceBelow(a, b, i)
          ensures false
        {
        }
      }
    } else {
      LexLeIff(a[1..], b[1..]);
      if LexLe(a, b) {
        if |a[1..]| <= |b[1..]| && a[1..] == b[1..][..|a[1..]|] {
          assert a == [a[0]] + a[1..];
          assert b[..|a|] == [b[0]] + b[1..][..|a[1..]|];
        } else {
          var i :| FirstDifferenceBelow(a[1..], b[1..], i);
          assert a[..i + 1] == [a[0]] + a[1..][..i];
          assert b[..i + 1] == [b[0]] + b[1..][..i];
          assert FirstDifferenceBelow(a, b, i + 1);
        }
      } else {
        forall i | FirstDifferenceBelow(a, b, i)
          ensures false
        {
          if i == 0 {
          } else {
            assert a[1..][..i - 1] == a[..i][1..];
            assert b[1..][..i - 1] == b[..i][1..];
            assert FirstDifferenceBelow(a[1..], b[1..], i - 1);
          }
        }
      }
    }
  }

  lemma {:induction false} LexLeReflexive(a: seq<nat>)
    ensures LexLe(a, a)
    decreases |a|
  {
    if |a| > 0 {
      LexLeReflexive(a[1..]);
    }
  }

  lemma {:induction false} LexLeAntisymmetric(a: seq<nat>, b: seq<nat>)
    requires LexLe(a, b) && LexLe(b, a)
    ensures a == b
    decreases |a|
  {
    if |a| > 0 {
      LexLeAntisymmetric(a[1..], b[1..]);
      assert a == [a[0]] + a[1..];
      assert b == [b[0]] + b[1..];
    }
  }

  lemma {:induction false} LexLeTransitive(a: seq<nat>, b: seq<nat>, c: seq<nat>)
    requires LexLe(a, b) && LexLe(b, c)
    ensures LexLe(a, c)
    decreases |a|
  {
    if |a| > 0 && a[0] == b[0] && b[0] == c[0] {
      LexLeTransitive(a[1..], b[1..], c[1..]);
    }
  }

  lemma {:induction false} LexLeTotal(a: seq<nat>, b: seq<nat>)
    ensures LexLe(a, b) || LexLe(b, a)
    decreases |a|
  {
    if |a| > 0 && |b| > 0 && a[0] == b[0] {
      LexLeTotal(a[1..], b[1..]);
    }
  }

  // Newest release

  /** Position `m` holds a maximum of `vs`, and every later entry is
      strictly smaller: the entry a stable ascending sort puts last. */
  predicate IsLastMaximum(vs: seq<seq<nat>>, m: nat) {
    && m < |vs|
    && (forall j :: 0 <= j < |vs| ==> LexLe(vs[j], vs[m]))
    && (forall j :: m < j < |vs| ==> !LexLe(vs[m], vs[j]))
  }

  /** The position `sorted(...).pop()` takes its element from. */
  function LastMaxIndex(vs: seq<seq<nat>>): (m: nat)
    requires |vs| > 0
    ensures IsLastMaximum(vs, m)
    decreases |vs|
  {
    if |vs| == 1 then
      LexLeReflexive(vs[0]);
      0
    else
      var n := |vs| - 1;
      var m0 := LastMaxIndex(vs[..n]);
      assert forall j :: 0 <= j < n ==> vs[..n][j] == vs[j];
      if LexLe(vs[m0], vs[n]) then
        LastMaxStep(vs, m0);
        n
      else
        LexLeTotal(vs[m0], vs[n]);
        m0
  }

  lemma LastMaxStep(vs: seq<seq<nat>>, m0: nat)
    requires |vs| > 1 && m0 < |vs| - 1
    requires forall j :: 0 <= j < |vs| - 1 ==> LexLe(vs[j], vs[m0])
    requires LexLe(vs[m0], vs[|vs| - 1])
    ensures forall j :: 0 <= j < |vs| ==> LexLe(vs[j], vs[|vs| - 1])
  {
    forall j | 0 <= j < |vs|
      ensures LexLe(vs[j], vs[|vs| - 1])
    {
      if j < |vs| - 1 {
        LexLeTransitive(vs[j], vs[m0], vs[|vs| - 1]);
      } else {
        LexLeReflexive(vs[j]);
      }
    }
  }

  /** At most one position is a last maximum, so the newest release is
      determined. */
  lemma LastMaximumUnique(vs: seq<seq<nat>>, m1: nat, m2: nat)
    requires IsLastMaximum(vs, m1) && IsLastMaximum(vs, m2)
    ensures m1 == m2
  {
    assert LexLe(vs[m1], vs[m2]) && LexLe(vs[m2], vs[m1]);
  }

  datatype ReleaseError =
    | NoReleases                     // `pop` on an empty list: IndexError
    | MalformedRelease(key: string)  // `int('')` in the sort key: ValueError

  /** The integer components of every release, or the first release whose
      conversion raises. */
  function ComponentsOfAll(rs: seq<string>): (r: Result<seq<seq<nat>>, string>)
    requires forall i :: 0 <= i < |rs| ==> IsReleaseKey(rs[i])
    ensures r.Ok? <==> forall i :: 0 <= i < |rs| ==> Components(rs[i]).Some?
    ensures r.Ok? ==> |r.value| == |rs| && forall i :: 0 <= i < |rs| ==> Components(rs[i]) == Some(r.value[i])
    ensures r.Err? ==> exists i :: 0 <= i < |rs| && rs[i] == r.error && Components(rs[i]).None?
                                   && forall j :: 0 <= j < i ==> Components(rs[j]).Some?
    decreases |rs|
  {
    if |rs| == 0 then Ok([])
    else
      match Components(rs[0])
      case None => Err(rs[0])
      case Some(v) =>
        match ComponentsOfAll(rs[1..])
        case Err(k) =>
          assert forall i :: 1 <= i < |rs| ==> rs[1..][i - 1] == rs[i];
          Err(k)
        case Ok(vs) => Ok([v] + vs)
  }

  /** The newest release among the keys PyPI lists for a package:
      `sorted(releases, key=...).pop()`. */
  function Latest(keys: seq<string>): (r: Result<string, ReleaseError>)
    ensures r == Err(NoReleases) <==> |Releases(keys)| == 0
    ensures r.Err? && r.error.MalformedRelease? ==>
              r.error.key in Releases(keys) && Components(r.error.key).None?
    ensures r.Ok? <==> |Releases(keys)| > 0 && forall k :: k in Releases(keys) ==> Components(k).Some?
    ensures r.Ok? ==> r.value in Releases(keys)
                      && forall k :: k in Releases(keys) ==> LexLe(Components(k).value, Components(r.value).value)
  {
    var rs := Releases(keys);
    if |rs| == 0 then Err(NoReleases)
    else
      match ComponentsOfAll(rs)
      case Err(k) => Err(MalformedRelease(k))
      case Ok(vs) =>
        var m := LastMaxIndex(vs);
        assert forall k :: k in rs ==> exists i :: 0 <= i < |rs| && rs[i] == k;
        Ok(rs[m])
  }
}
